=== FILE: README.md ===
# gmd documenter: a Dafny model

`gmd` turns a table of rules into Markdown documents. Each rule names a base
directory, `include`/`exclude` globs matched against file base names,
`exclude_dirs` globs that prune whole subtrees, and an optional section
heading and description. For each output, the rules are folded in order:
gather the matching files, append the heading and note, then append one
`### File:` heading and one fenced, language-tagged code block for every
file whose path this document has not emitted yet. The first error aborts
the document.

This project models that engine (`documenter/file_processor.go`) as pure
functions over an abstract file tree, and proves what the code promises:
selection, pruning, rendering, de-duplication, ordering and failure.

| file | module | models |
|---|---|---|
| `wrappers.dfy` | `Wrappers` | `Option` and `Result` with early return (`:-`) for Go's `error` returns |
| `glob.dfy` | `Glob` | `filepath.Match` on one base name (`*`, `?`, literals, `\` escapes, `[...]`/`[^...]` classes with ranges) and `matchesAny` |
| `paths.dfy` | `Paths` | `filepath.Base`, `filepath.Ext`, `filepath.Clean`, two-element `filepath.Join`, the paths `filepath.Walk` hands out, and `filepath.Rel` as their inverse |
| `selector.dfy` | `Selector` | the file tree, `filepath.Walk` with the walk function of `gatherFiles`, and a reference definition of which files are selected |
| `render.dfy` | `Render` | `languageMap` (all 30 entries), `processFile`'s fenced block, and its inverse |
| `assembler.dfy` | `Assembler` | the `Rule` record (`documenter/config.go`, lines 16-23), `processRules` as a fold over rules carrying the processed-path set, and reference definitions of the document's blocks, headings and notes |
| `outputs.dfy` | `Outputs` | the loop of `ProcessOutputs` over the outputs, in a given iteration order |

The file tree is a value. An `Entry` is one of:

- a readable file with its content;
- a file whose read fails;
- a directory with its children, in the order `filepath.Walk` reads them;
- a directory whose listing fails;
- an entry whose `Lstat` fails.

A `FileSystem` maps each rule's base directory to the entry found there. A
missing key, or the empty path, means the root's `Lstat` fails. Errors are datatypes:

- `WalkError`: `StatFailed` or `ListFailed`, with the path;
- `AssembleError`: `GatherFailed` wraps a walk error; `FileFailed` names the unreadable file.

The Go code wraps these errors in message strings.

Three behaviours of the code are easy to miss:

- **Unlistable excluded directory.** A directory whose listing fails is an
  error even when an `exclude_dirs` pattern matches its name. `filepath.Walk`
  lists the directory and passes the listing error to the walk function,
  which returns it before it tests `exclude_dirs`
  (`documenter/file_processor.go`, lines 110-119).
- **Heading after gathering.** A rule's heading and note are appended only
  after its gathering succeeds (lines 71-82). A failed gathering aborts the
  whole document (line 73), so no written text depends on this order.
- **Cleaned paths.** `filepath.Walk` hands the base directory to the walk
  function as written, and every entry below it as `filepath.Join(parent,
  name)`, which cleans the result. So the base directories `src`, `./src`
  and `src/` give the same paths below them. A file reached from the base
  `.` and from the base `sub` gets the one path `sub/a.go`, and
  de-duplication (lines 86-89) emits it once.

## Model

| member | source | states |
|---|---|---|
| `Glob.Match` | documenter/file_processor.go:116 | A pattern matches a name only if it is well formed; the error `filepath.Match` returns for a malformed pattern is dropped, so a malformed pattern matches nothing. |
| `Glob.MatchesAny` | documenter/file_processor.go:138-145 | True exactly when some pattern of the list matches the name; an empty list matches nothing. |
| `Glob.LiteralPatternMatchesOnlyItself` | documenter/file_processor.go:140 | A pattern without `*`, `?`, `[` or `\` matches exactly the one name it spells. |
| `Glob.StarMatchesEveryName` | documenter/file_processor.go:140 | `*` matches a name exactly when the name holds no separator, the empty name included. |
| `Glob.SuffixPatternMatches` | documenter/file_processor.go:140 | `*` followed by literal text (as in `*.go`) matches exactly the names that end in that text with no separator before it. |
| `Glob.SeparatorPatternNeverMatches` | documenter/file_processor.go:138-144 | Matching is against a base name, so a pattern with a literal `/` (such as `src/main.go`) matches no file. |
| `Paths.Base` | documenter/file_processor.go:116 | `filepath.Base` is never empty, is `/` or free of separators, and leaves a plain name unchanged. |
| `Paths.BaseOfJoin` | documenter/file_processor.go:140 | The base of a directory joined with an entry name is that entry name. |
| `Paths.Ext` | documenter/file_processor.go:154 | `filepath.Ext` is empty or a suffix of the path that starts with `.` and holds no other dot and no separator. |
| `Paths.ExtEmptyIffNoDot` | documenter/file_processor.go:154 | The extension is empty exactly when the last path element has no dot. |
| `Paths.ExtOfDottedName` | documenter/file_processor.go:154 | A path ending in `.suffix`, with a suffix free of dots and separators, has extension `.suffix`. |
| `Paths.ExtOfJoin` | documenter/file_processor.go:154 | The extension of a joined path is that of the entry name alone, whatever dots the directories hold. |
| `Paths.CleanIdempotent` | documenter/file_processor.go:110 | Cleaning a cleaned path changes nothing. |
| `Paths.CleanEqual` | documenter/file_processor.go:110 | Two paths clean to the same string exactly when both or neither are rooted and their elements agree once empty and `.` elements are dropped and `..` elements are resolved. |
| `Paths.CleanAppend` | documenter/file_processor.go:110 | Appending `/` and entry names to a non-empty path keeps its rootedness and appends the names to its cleaned elements. |
| `Paths.CleanDropsLeadingDot` | documenter/file_processor.go:110 | A leading `./` on a relative path is cleaned away. |
| `Paths.PathOfCleaned` | documenter/file_processor.go:110-128 | The path of an entry below the base directory is the cleaned base with the entry names appended. |
| `Paths.SameCleanBaseSamePaths` | documenter/file_processor.go:110-128 | Two base spellings that clean alike, such as `src` and `./src`, give every entry below them the same path. |
| `Paths.DotBasePath` | documenter/file_processor.go:110-128 | Below the base `.`, an entry's path is its relative path with no `./` prefix. |
| `Paths.DotBaseAgreesWithSubdir` | documenter/file_processor.go:86-89 | A file reached from the base `.` and from the base naming its top directory gets the same path, so the processed-path set sees one file. |
| `Paths.JoinRel` | documenter/file_processor.go:96 | The relative path displayed for a walked file, joined back onto the base directory with `filepath.Join`, gives the walked path. |
| `Paths.ExtOfJoinName` | documenter/file_processor.go:154 | Joining an entry name onto any directory keeps the name's extension. |
| `Paths.BaseOfPath` | documenter/file_processor.go:116 | The base of a walked path is the name of the entry it reaches. |
| `Selector.Walk` | documenter/file_processor.go:110-132 | Every hit of a successful walk lies below the starting entry, is a non-directory, and has a base name that is included and not excluded; with no include patterns the walk finds nothing. |
| `Selector.Gather` | documenter/file_processor.go:107-135 | A missing or empty base directory is a stat error. A returned file never matches an `exclude` pattern, even when an `include` pattern matches it, and it always matches some `include` pattern. An empty `include` list selects nothing. |
| `Selector.WalkSound` | documenter/file_processor.go:114-132 | Each hit is reached from the starting entry through unpruned directories only. |
| `Selector.WalkComplete` | documenter/file_processor.go:114-132 | Each wanted file reached through unpruned directories is a hit of a successful walk. |
| `Selector.GatherSelectsExactly` | documenter/file_processor.go:107-135 | A successful gathering returns exactly the selected files: reached from the base directory through directories no `exclude_dirs` pattern matches, non-directories, with an included and not excluded base name. |
| `Selector.GatherFailsIffBroken` | documenter/file_processor.go:110-113 | Gathering fails exactly when the base directory is missing or empty, or when the walk reaches an entry it cannot stat or a directory it cannot list without first passing a pruned directory. Such a directory fails even if its own name is excluded. |
| `Selector.PrunedDirectoriesContributeNothing` | documenter/file_processor.go:114-119 | No selected file lies at or below a directory, the base directory included, whose base name an `exclude_dirs` pattern matches. |
| `Selector.PrunedBaseDirectoryYieldsNothing` | documenter/file_processor.go:114-119 | A listable base directory whose own base name is excluded yields an empty, successful result. |
| `Selector.SameBaseNameSameVerdict` | documenter/file_processor.go:124-129 | Two reachable files with equal base names are either both selected or both left out, wherever they lie. |
| `Selector.NodeNameIsBaseOfPath` | documenter/file_processor.go:116 | The name that patterns are matched against is `filepath.Base` of the walked path. |
| `Selector.GatherInWalkOrder` | documenter/file_processor.go:109-132 | On a tree whose directories list their children in sorted order, files come back in depth-first order of their names, each at most once. |
| `Render.LanguageFor` | documenter/file_processor.go:154-158 | The tag is the table's entry when the extension is a key and `plaintext` otherwise; it is never empty and has no line break. |
| `Render.RenderFile` | documenter/file_processor.go:160 | The block starts and ends with a fence and is exactly as long as the fences, the tag, two line breaks and the content. |
| `Render.RenderFileRoundTrip` | documenter/file_processor.go:160 | Splitting a rendered block gives back the language tag and the content verbatim. |
| `Render.LanguageFromBaseName` | documenter/file_processor.go:154 | The tag of a walked path is that of the entry's own name, whatever directory it is joined onto. |
| `Render.GoFileIsTaggedGo` | documenter/file_processor.go:26 | Every file named `stem.go`, in any directory, is tagged `go`. |
| `Render.UnknownExtensionIsPlaintext` | documenter/file_processor.go:154-158 | Every file, in any directory, whose extension is missing from the table is tagged `plaintext`. |
| `Render.DotlessNameIsPlaintext` | documenter/file_processor.go:154-158 | A file name without a dot is tagged `plaintext`, even below a directory whose name has one. |
| `Assembler.ProjectionsOfIntro` | documenter/file_processor.go:77-82 | A rule contributes a heading exactly when its heading is non-empty and a note exactly when its description is non-empty, and no file block. |
| `Assembler.FirstOccurrencesOfConcat` | documenter/file_processor.go:86-89 | De-duplicating two runs of files in sequence drops from the second run every path of the first. |
| `Assembler.FirstOccurrencesDistinct` | documenter/file_processor.go:86-89 | De-duplication keeps each path once and never a path already processed. |
| `Assembler.FirstOccurrencesAtFirstIndex` | documenter/file_processor.go:86-89 | De-duplication keeps each path at its first occurrence, in the order of first occurrences. |
| `Assembler.EmitFilesSpec` | documenter/file_processor.go:85-98 | The file loop fails exactly when a file it has to emit cannot be read. Otherwise it marks every path processed and appends one block per first occurrence of a path not processed before. |
| `Assembler.EmitRuleSpec` | documenter/file_processor.go:69-99 | One rule succeeds exactly when its gathering succeeds and its new files can be read. It then appends its heading and note, followed by the blocks of those files in gathered order. |
| `Assembler.EmitRulesSpec` | documenter/file_processor.go:69-100 | The rule loop fails exactly when some gathering fails or a file to be emitted cannot be read. Otherwise its file blocks are those of all gathered files with repeats dropped, and its headings and notes are the rules' own, in rule order. |
| `Assembler.AssembleSpec` | documenter/file_processor.go:65-100 | The same, starting from an empty processed set: the document of one output. |
| `Assembler.GatheredByRuleSpec` | documenter/file_processor.go:69-74 | Grouping the gathered files by rule succeeds exactly when every rule's gathering does. Group i is then rule i's own gathered files, and the groups in order are all gathered files. |
| `Assembler.EmitRulesDocument` | documenter/file_processor.go:69-100 | The rule loop fails exactly when some gathering fails or a file to be emitted cannot be read. Otherwise it appends one section per rule, in rule order. Section i is rule i's heading and note, then the blocks of its files whose paths were not processed before, by an earlier rule or earlier in its own list. |
| `Assembler.AssembleDocument` | documenter/file_processor.go:65-100 | The same, starting from an empty processed set: the document of one output, section by section. |
| `Assembler.ProcessRulesSpec` | documenter/file_processor.go:65-104 | `processRules` writes text exactly when every gathering succeeds and every file to be emitted can be read. The text is then that of the section-by-section document. |
| `Assembler.DocTextOfConcat` | documenter/file_processor.go:103 | The written text of two parts of a document is the text of the first followed by the text of the second. |
| `Assembler.OneBlockPerPath` | documenter/file_processor.go:86-89 | Within one document, every gathered path has exactly one `### File:` block, and no two blocks share a path. |
| `Assembler.BlocksAtFirstOccurrence` | documenter/file_processor.go:69-99 | Each block is the block of its path's first occurrence across the rules. Blocks follow the order of first occurrences, so later matches add nothing. |
| `Assembler.EmitFilesFailure` | documenter/file_processor.go:85-94 | An aborted file loop reports the first file it had to emit that cannot be read. |
| `Assembler.ProcessRulesFailure` | documenter/file_processor.go:69-94 | A failed `processRules` returns the first error. There is a rule such that the rules before it alone would write their document. The error is then that rule's gathering error, or the first unreadable file among that rule's files whose paths were not processed before. |
| `Assembler.EmitRulesFailure` | documenter/file_processor.go:69-99 | The same for the rule loop from any processed set: the rules before the failing one gather and read without error, and the error is the failing rule's own. |
| `Assembler.EmptyBaseDirFails` | documenter/file_processor.go:71-74 | A rule whose base directory is empty, which is what a rule without `base_dir` holds, fails the whole document whatever the tree holds. When it is the first rule, the error is the stat error of the empty path. |
| `Assembler.FirstUnreadableSpec` | documenter/file_processor.go:91-93 | The first unreadable file is absent exactly when every file is readable. Otherwise it is an unreadable file with only readable files before it. |
| `Assembler.OneFileRule` | documenter/file_processor.go:65-104 | A rule with a heading, over a non-empty directory path that holds one wanted file, writes the heading followed by that file's `### File:` line and fenced block. |
| `Assembler.GoFileExample` | documenter/file_processor.go:65-104 | For any non-empty base directory and any file `stem.go` in it, whatever it holds, a `Src` rule including `*.go` writes exactly ``## Src\n\n### File: `stem.go`\n```go\n<content>\n```\n\n``: the heading, the relative path, and the content verbatim in a `go` block. |
| `Outputs.OutputIndependent` | documenter/file_processor.go:49-51 | Two configurations that give an output the same rules give it the same outcome over the file tree before the run, whatever their other outputs. |
| `Outputs.SharedPathInEachOutput` | documenter/file_processor.go:68 | Each output starts from an empty processed set, so a path gathered by two successful outputs gets exactly one block in each document. |
| `Outputs.ProcessOutputs` | documenter/file_processor.go:49-54 | Every written document is its output's own `processRules` text. A reported failure is the failing output's own error. The run succeeds exactly when every output's rules succeed. |
| `Outputs.FailureIndex` | documenter/file_processor.go:49-54 | The outputs before the returned position all succeed, and the output at it, if any, fails. |
| `Outputs.OutputsStopAtFirstFailure` | documenter/file_processor.go:49-54 | The run stops at the first failing output in the iteration order, with that output's error. By then it has written exactly the outputs visited before it. |
| `Outputs.OrderIndependent` | documenter/file_processor.go:49 | Whether the run succeeds, and what it writes when it does, does not depend on the order in which the outputs map is iterated. |

## Left out

- `ensureOutputDir` (`os.MkdirAll`) and the final `os.WriteFile`: directory creation and writing are I/O. A write failure is not modelled; a successful `processRules` is the text it would write.
- The iteration order of the Go outputs map is unspecified, so it is a parameter of `Outputs.ProcessOutputs`.
- Outputs.Documents: every output is evaluated on the file tree as it was before the run. Go writes each document (`documenter/file_processor.go`, line 103) before it walks for the next output (line 49), so a document written below a base directory that a later output walks is gathered there. The model does not feed written documents back into the tree. It matches Go when no output file lies below a walked base directory.
- Outputs.ProcessOutputs: for the same reason, each written text is that of the tree before the run, not the tree the earlier outputs have grown.
- Outputs.OutputIndependent: holds on the tree before the run only. A document written by another output below a base directory that this output walks changes this output's result in Go.
- Outputs.OrderIndependent: holds for that fixed tree only. When an output file lies below a directory that another output walks, the iteration order can change what Go writes. It also fails when two output names join to the same file (`a.md` and `./a.md`, or `d/a.md` and `d//a.md`): Go writes both (line 103), and the last write, chosen by the order, wins.
- Output paths (`filepath.Join(outputDir, outputFile)`) are not modelled: documents are keyed by output name.
- De-duplication keys on the walked path string as the code does. Cleaning merges spellings of one directory that differ by `.` elements, `..` elements or repeated and trailing separators. A relative and an absolute spelling of one directory, or two spellings through a symbolic link, are not merged, because `filepath.Clean` never consults the file system or the working directory. A base that is itself a file is handed out as written, so `x.go` and `./x.go` as bases give two blocks.
- The file tree maps each base directory's spelling to an entry, and its keys are unrelated. Nothing forces two spellings of one directory to map to equal entries. Nothing ties nested bases together either: `fs["sub"]` need not be the `sub` child of `fs["."]`. The model proves that paths agree, not that the entries behind them do.
- `filepath.Join` is modelled for the two elements the walk passes it, not for any number of elements.
- Names are sequences of Unicode code points. UTF-8 decoding and invalid byte sequences in names or patterns are not modelled, and file contents are treated as text.
- `Glob.Match` is defined declaratively, by backtracking over the pattern's tokens. Go's `filepath.Match` scans chunk by chunk and takes the leftmost match of each chunk. The two are not proved equivalent.
- Symbolic links are not modelled. `filepath.Walk` does not follow them, and reading one that points to a directory fails, as a file whose read fails does here.
- Error messages are not modelled: errors are datatypes rather than wrapped strings.
- The ignored error of `filepath.Rel` is not modelled. The relative path is computed from the entry names below the base directory, which is what `filepath.Rel` returns for those paths.
- `documenter/config.go` (`LoadConfig`, YAML decoding) and `main.go` (command-line handling) are not part of this model. Only the `Rule` record is mirrored.
- File permission bits (`os.ModePerm`) are not modelled.

=== FILE: assembler.dfy ===
/** The assembler: `processRules`, folding over the rules of one output
    document. Each rule gathers its files, then contributes its optional
    heading and note, then one block per file whose path has not been
    emitted yet in this document. The first error aborts the document. */
module Assembler {
  import opened Wrappers
  import opened Paths
  import opened Selector
  import opened Render
  import Glob

  /** One configured scan of a directory (the `Rule` record of the
      configuration). An absent heading or description is "". */
  datatype Rule = Rule(
    baseDir: string,
    includes: seq<string>,
    excludes: seq<string>,
    excludeDirs: seq<string>,
    sectionHeading: string,
    description: string)

  function PatternsOf(r: Rule): Patterns {
    Patterns(r.includes, r.excludes, r.excludeDirs)
  }

  /** One element of the `markdownContent` list. A file block carries the
      walked path it was emitted for, the displayed relative path, and the
      rendered fence. */
  datatype Piece =
    | Heading(heading: string)
    | Note(note: string)
    | FileBlock(path: string, rel: string, block: string)

  function PieceText(p: Piece): string {
    match p
    case Heading(h) => "## " + h + "\n\n"
    case Note(d) => "> NOTE: " + d + "\n\n"
    case FileBlock(_, rel, block) => "### File: `" + rel + "`\n" + block + "\n\n"
  }

  /** `strings.Join(markdownContent, "")`. */
  function DocText(doc: seq<Piece>): string
    decreases |doc|
  {
    if doc == [] then "" else PieceText(doc[0]) + DocText(doc[1..])
  }

  datatype AssembleError =
    | GatherFailed(cause: WalkError)   // "error gathering files"
    | FileFailed(path: string)         // "error processing file"

  /** A gathered file as the assembler uses it: the walked path (the
      de-duplication key), the path relative to the rule's base directory,
      and the file found there. */
  datatype Found = Found(path: string, rel: string, file: Entry)

  function FoundOf(r: Rule, hits: seq<Hit>): seq<Found> {
    seq(|hits|, i requires 0 <= i < |hits| => Found(PathOf(r.baseDir, hits[i].comps), Rel(hits[i].comps), hits[i].file))
  }

  /** The processed-path set and the content appended so far. */
  datatype State = State(processed: set<string>, doc: seq<Piece>)

  function Block(f: Found): Piece
    requires f.file.File?
  {
    FileBlock(f.path, f.rel, RenderFile(f.path, f.file.content))
  }

  /** The inner loop over one rule's files. */
  function EmitFiles(found: seq<Found>, st: State): Result<State, AssembleError>
    decreases |found|
  {
    if found == [] then Success(st)
    else
      var f := found[0];
      if f.path in st.processed then EmitFiles(found[1..], st)
      else if f.file.File? then
        EmitFiles(found[1..], State(st.processed + {f.path}, st.doc + [Block(f)]))
      else Failure(FileFailed(f.path))
  }

  /** The heading and note a rule contributes before its files. */
  function Intro(r: Rule): seq<Piece> {
    (if r.sectionHeading != "" then [Heading(r.sectionHeading)] else [])
    + (if r.description != "" then [Note(r.description)] else [])
  }

  /** One iteration of the outer loop: gather, then heading and note, then
      the files. */
  function EmitRule(fs: FileSystem, r: Rule, st: State): Result<State, AssembleError> {
    match Gather(fs, r.baseDir, PatternsOf(r))
    case Failure(e) => Failure(GatherFailed(e))
    case Success(hits) => EmitFiles(FoundOf(r, hits), State(st.processed, st.doc + Intro(r)))
  }

  function EmitRules(fs: FileSystem, rules: seq<Rule>, st: State): Result<State, AssembleError>
    decreases |rules|
  {
    if rules == [] then Success(st)
    else
      var next :- EmitRule(fs, rules[0], st);
      EmitRules(fs, rules[1..], next)
  }

  /** The document of one output, starting from an empty processed set. */
  function Assemble(fs: FileSystem, rules: seq<Rule>): Result<seq<Piece>, AssembleError> {
    var st :- EmitRules(fs, rules, State({}, []));
    Success(st.doc)
  }

  /** `processRules` up to the final write: the text written, or the error
      that prevents any writing. */
  function ProcessRules(fs: FileSystem, rules: seq<Rule>): Result<string, AssembleError> {
    var doc :- Assemble(fs, rules);
    Success(DocText(doc))
  }

  // ---------------------------------------------------------------------
  // Reference definitions: what the document holds, stated without the
  // processed set.

  function PathSet(found: seq<Found>): set<string> {
    set f | f in found :: f.path
  }

  /** The files in order with every path after its first occurrence, and
      every path in `seen`, dropped. */
  function FirstOccurrences(found: seq<Found>, seen: set<string>): seq<Found>
    decreases |found|
  {
    if found == [] then []
    else if found[0].path in seen then FirstOccurrences(found[1..], seen)
    else [found[0]] + FirstOccurrences(found[1..], seen + {found[0].path})
  }

  predicate AllReadable(found: seq<Found>) {
    forall i :: 0 <= i < |found| ==> found[i].file.File?
  }

  function Blocks(found: seq<Found>): seq<Piece>
    requires AllReadable(found)
  {
    seq(|found|, i requires 0 <= i < |found| => Block(found[i]))
  }

  /** Every file the rules' gathers return, rule after rule, or the first
      gathering error. */
  function Gathered(fs: FileSystem, rules: seq<Rule>): Result<seq<Found>, WalkError>
    decreases |rules|
  {
    if rules == [] then Success([])
    else
      var hits :- Gather(fs, rules[0].baseDir, PatternsOf(rules[0]));
      var rest :- Gathered(fs, rules[1..]);
      Success(FoundOf(rules[0], hits) + rest)
  }

  /** The same files grouped by rule: one list per rule, in rule order. */
  function GatheredByRule(fs: FileSystem, rules: seq<Rule>): (r: Result<seq<seq<Found>>, WalkError>)
    ensures r.Success? ==> |r.value| == |rules|
    decreases |rules|
  {
    if rules == [] then Success([])
    else
      var hits :- Gather(fs, rules[0].baseDir, PatternsOf(rules[0]));
      var rest :- GatheredByRule(fs, rules[1..]);
      Success([FoundOf(rules[0], hits)] + rest)
  }

  function Flatten(groups: seq<seq<Found>>): seq<Found>
    decreases |groups|
  {
    if groups == [] then [] else groups[0] + Flatten(groups[1..])
  }

  /** The document section by section. Rule i contributes its heading and
      note, then the blocks of those of its files whose paths appear
      neither in `seen` nor among the files of rules 0 to i - 1 nor earlier
      in its own list; the sections follow each other in rule order. */
  function Document(rules: seq<Rule>, groups: seq<seq<Found>>, seen: set<string>): seq<Piece>
    requires |groups| == |rules|
    requires AllReadable(FirstOccurrences(Flatten(groups), seen))
    decreases |rules|
  {
    if rules == [] then []
    else
      var first := FirstOccurrences(groups[0], seen);
      FirstOccurrencesOfConcat(groups[0], Flatten(groups[1..]), seen);
      AllReadableOfConcat(first, FirstOccurrences(Flatten(groups[1..]), seen + PathSet(groups[0])));
      Intro(rules[0]) + Blocks(first) + Document(rules[1..], groups[1..], seen + PathSet(groups[0]))
  }

  function RuleHeadings(rules: seq<Rule>): seq<string>
    decreases |rules|
  {
    if rules == [] then []
    else (if rules[0].sectionHeading != "" then [rules[0].sectionHeading] else []) + RuleHeadings(rules[1..])
  }

  function RuleNotes(rules: seq<Rule>): seq<string>
    decreases |rules|
  {
    if rules == [] then []
    else (if rules[0].description != "" then [rules[0].description] else []) + RuleNotes(rules[1..])
  }

  function Headings(doc: seq<Piece>): seq<string>
    decreases |doc|
  {
    if doc == [] then []
    else (if doc[0].Heading? then [doc[0].heading] else []) + Headings(doc[1..])
  }

  function Notes(doc: seq<Piece>): seq<string>
    decreases |doc|
  {
    if doc == [] then []
    else (if doc[0].Note? then [doc[0].note] else []) + Notes(doc[1..])
  }

  function FileBlocks(doc: seq<Piece>): (r: seq<Piece>)
    ensures forall i :: 0 <= i < |r| ==> r[i].FileBlock?
    decreases |doc|
  {
    if doc == [] then []
    else (if doc[0].FileBlock? then [doc[0]] else []) + FileBlocks(doc[1..])
  }

  // ---------------------------------------------------------------------
  // Properties of the reference definitions.

  lemma {:induction false} HeadingsOfConcat(a: seq<Piece>, b: seq<Piece>)
    ensures Headings(a + b) == Headings(a) + Headings(b)
    decreases |a|
  {
    if a == [] {
      assert a + b == b;
    } else {
      assert (a + b)[0] == a[0] && (a + b)[1..] == a[1..] + b;
      HeadingsOfConcat(a[1..], b);
    }
  }

  lemma {:induction false} NotesOfConcat(a: seq<Piece>, b: seq<Piece>)
    ensures Notes(a + b) == Notes(a) + Notes(b)
    decreases |a|
  {
    if a == [] {
      assert a + b == b;
    } else {
      assert (a + b)[0] == a[0] && (a + b)[1..] == a[1..] + b;
      NotesOfConcat(a[1..], b);
    }
  }

  lemma {:induction false} FileBlocksOfConcat(a: seq<Piece>, b: seq<Piece>)
    ensures FileBlocks(a + b) == FileBlocks(a) + FileBlocks(b)
    decreases |a|
  {
    if a == [] {
      assert a + b == b;
    } else {
      assert (a + b)[0] == a[0] && (a + b)[1..] == a[1..] + b;
      FileBlocksOfConcat(a[1..], b);
    }
  }

  lemma {:induction false} DocTextOfConcat(a: seq<Piece>, b: seq<Piece>)
    ensures DocText(a + b) == DocText(a) + DocText(b)
    decreases |a|
  {
    if a == [] {
      assert a + b == b;
    } else {
      assert (a + b)[0] == a[0] && (a + b)[1..] == a[1..] + b;
      DocTextOfConcat(a[1..], b);
    }
  }

  lemma ProjectionsOfConcat(a: seq<Piece>, b: seq<Piece>)
    ensures Headings(a + b) == Headings(a) + Headings(b)
    ensures Notes(a + b) == Notes(a) + Notes(b)
    ensures FileBlocks(a + b) == FileBlocks(a) + FileBlocks(b)
  {
    HeadingsOfConcat(a, b);
    NotesOfConcat(a, b);
    FileBlocksOfConcat(a, b);
  }

  lemma {:induction false} ProjectionsOfBlocks(found: seq<Found>)
    requires AllReadable(found)
    ensures Headings(Blocks(found)) == [] && Notes(Blocks(found)) == []
    ensures FileBlocks(Blocks(found)) == Blocks(found)
    decreases |found|
  {
    if found != [] {
      assert Blocks(found)[1..] == Blocks(found[1..]);
      ProjectionsOfBlocks(found[1..]);
    }
  }

  lemma BlocksOfConcat(a: seq<Found>, b: seq<Found>)
    requires AllReadable(a) && AllReadable(b)
    ensures AllReadable(a + b)
    ensures Blocks(a + b) == Blocks(a) + Blocks(b)
  {
  }

  lemma ProjectionsOfIntro(r: Rule)
    ensures Headings(Intro(r)) == (if r.sectionHeading != "" then [r.sectionHeading] else [])
    ensures Notes(Intro(r)) == (if r.description != "" then [r.description] else [])
    ensures FileBlocks(Intro(r)) == []
  {
    var h: seq<Piece> := if r.sectionHeading != "" then [Heading(r.sectionHeading)] else [];
    var n: seq<Piece> := if r.description != "" then [Note(r.description)] else [];
    ProjectionsOfConcat(h, n);
  }

  /** Dropping repeats of a concatenation: the second part loses every path
      of the first. */
  lemma {:induction false} FirstOccurrencesOfConcat(a: seq<Found>, b: seq<Found>, seen: set<string>)
    ensures FirstOccurrences(a + b, seen) == FirstOccurrences(a, seen) + FirstOccurrences(b, seen + PathSet(a))
    decreases |a|
  {
    if a == [] {
      assert a + b == b;
      assert PathSet(a) == {};
      assert seen + {} == seen;
    } else {
      assert (a + b)[0] == a[0];
      assert (a + b)[1..] == a[1..] + b;
      SeenAfterHead(a, seen);
      if a[0].path in seen {
        FirstOccurrencesOfConcat(a[1..], b, seen);
      } else {
        FirstOccurrencesOfConcat(a[1..], b, seen + {a[0].path});
      }
    }
  }

  /** The paths seen once the first file of `a` is past. */
  lemma SeenAfterHead(a: seq<Found>, seen: set<string>)
    requires a != []
    ensures seen + PathSet(a) == seen + {a[0].path} + PathSet(a[1..])
    ensures a[0].path in seen ==> seen + PathSet(a) == seen + PathSet(a[1..])
  {
    assert a == [a[0]] + a[1..];
    PathSetOfConcat([a[0]], a[1..]);
    assert PathSet([a[0]]) == {a[0].path};
  }

  /** The index of the first file with path `p`. */
  function FirstIndex(found: seq<Found>, p: string): (k: nat)
    requires p in PathSet(found)
    ensures k < |found| && found[k].path == p
    ensures forall j :: 0 <= j < k ==> found[j].path != p
    decreases |found|
  {
    if found[0].path == p then 0
    else
      assert p in PathSet(found[1..]) by {
        var f :| f in found && f.path == p;
        var j :| 0 <= j < |found| && found[j] == f;
        assert found[1..][j - 1] == f;
      }
      1 + FirstIndex(found[1..], p)
  }

  /** Dropping repeats keeps every path not in `seen`, and no other. */
  lemma {:induction false} FirstOccurrencesPaths(found: seq<Found>, seen: set<string>)
    ensures PathSet(FirstOccurrences(found, seen)) == PathSet(found) - seen
    decreases |found|
  {
    if found != [] {
      var f := found[0];
      assert found == [f] + found[1..];
      assert PathSet(found) == {f.path} + PathSet(found[1..]);
      if f.path in seen {
        FirstOccurrencesPaths(found[1..], seen);
      } else {
        FirstOccurrencesPaths(found[1..], seen + {f.path});
        var tail := FirstOccurrences(found[1..], seen + {f.path});
        assert PathSet([f] + tail) == {f.path} + PathSet(tail) by {
          assert forall g :: g in [f] + tail <==> g == f || g in tail;
        }
      }
    }
  }

  /** Dropping repeats keeps each path once and never one of `seen`. */
  lemma {:induction false} FirstOccurrencesDistinct(found: seq<Found>, seen: set<string>)
    ensures forall i :: 0 <= i < |FirstOccurrences(found, seen)| ==> FirstOccurrences(found, seen)[i].path !in seen
    ensures forall i, j :: 0 <= i < j < |FirstOccurrences(found, seen)| ==>
      FirstOccurrences(found, seen)[i].path != FirstOccurrences(found, seen)[j].path
    decreases |found|
  {
    if found != [] {
      var f := found[0];
      if f.path in seen {
        FirstOccurrencesDistinct(found[1..], seen);
      } else {
        FirstOccurrencesDistinct(found[1..], seen + {f.path});
        var tail := FirstOccurrences(found[1..], seen + {f.path});
        var out := [f] + tail;
        forall i | 0 < i < |out| ensures out[i] == tail[i - 1] {}
      }
    }
  }

  /** Dropping repeats keeps each file at its first occurrence, in the
      order of first occurrences. */
  lemma {:induction false} FirstOccurrencesAtFirstIndex(found: seq<Found>, seen: set<string>)
    ensures forall i :: 0 <= i < |FirstOccurrences(found, seen)| ==>
      && FirstOccurrences(found, seen)[i].path in PathSet(found)
      && FirstOccurrences(found, seen)[i] == found[FirstIndex(found, FirstOccurrences(found, seen)[i].path)]
    ensures forall i, j :: 0 <= i < j < |FirstOccurrences(found, seen)| ==>
      FirstIndex(found, FirstOccurrences(found, seen)[i].path) < FirstIndex(found, FirstOccurrences(found, seen)[j].path)
    decreases |found|
  {
    if found != [] {
      var f := found[0];
      var rest := found[1..];
      var seen' := if f.path in seen then seen else seen + {f.path};
      var tail := FirstOccurrences(rest, seen');
      FirstOccurrencesAtFirstIndex(rest, seen');
      FirstOccurrencesDistinct(rest, seen');
      assert found == [f] + rest;
      forall i | 0 <= i < |tail|
        ensures tail[i].path in PathSet(found) && tail[i].path != f.path
        ensures FirstIndex(found, tail[i].path) == 1 + FirstIndex(rest, tail[i].path)
        ensures tail[i] == found[FirstIndex(found, tail[i].path)]
      {
        assert tail[i] in found;
      }
      if f.path !in seen {
        var out := [f] + tail;
        assert FirstIndex(found, f.path) == 0;
        forall i | 0 < i < |out| ensures out[i] == tail[i - 1] {}
      }
    }
  }

  // ---------------------------------------------------------------------
  // The fold against the reference definitions.

  lemma BlocksOfCons(f: Found, tail: seq<Found>)
    requires f.file.File?
    ensures AllReadable([f] + tail) <==> AllReadable(tail)
    ensures AllReadable(tail) ==> Blocks([f] + tail) == [Block(f)] + Blocks(tail)
  {
    ReadableOfCons(f, tail);
    if AllReadable(tail) {
      var s := [f] + tail;
      var b := Blocks(s);
      var c := [Block(f)] + Blocks(tail);
      assert |b| == |c|;
      forall i | 0 <= i < |b| ensures b[i] == c[i] {
        if i > 0 {
          assert s[i] == tail[i - 1];
        }
      }
    }
  }

  lemma ReadableOfCons(f: Found, tail: seq<Found>)
    requires f.file.File?
    ensures AllReadable([f] + tail) <==> AllReadable(tail)
  {
    var s := [f] + tail;
    assert forall i :: 0 <= i < |tail| ==> s[i + 1] == tail[i];
    if AllReadable(tail) {
      forall i | 0 <= i < |s| ensures s[i].file.File? {
        if i > 0 {
          assert s[i] == tail[i - 1];
        }
      }
    }
  }

  /** The file loop fails exactly when a file it has to read (the first
      occurrence of a path not yet processed) cannot be read; otherwise it
      marks every path processed and appends one block per such file. */
  lemma {:induction false} EmitFilesSpec(found: seq<Found>, st: State)
    ensures EmitFiles(found, st).Success? <==> AllReadable(FirstOccurrences(found, st.processed))
    ensures EmitFiles(found, st).Success? ==>
      && AllReadable(FirstOccurrences(found, st.processed))
      && EmitFiles(found, st).value
         == State(st.processed + PathSet(found), st.doc + Blocks(FirstOccurrences(found, st.processed)))
    decreases |found|
  {
    if found == [] {
      assert PathSet(found) == {};
      assert st.processed + {} == st.processed;
      assert st.doc + [] == st.doc;
    } else {
      var f := found[0];
      var rest := found[1..];
      assert PathSet(found) == {f.path} + PathSet(rest) by {
        assert found == [f] + rest;
      }
      if f.path in st.processed {
        EmitFilesSpec(rest, st);
        assert st.processed + PathSet(found) == st.processed + PathSet(rest);
      } else if f.file.File? {
        EmitFilesStep(found, st);
      } else {
        assert FirstOccurrences(found, st.processed)[0] == f;
      }
    }
  }

  lemma {:induction false} EmitFilesStep(found: seq<Found>, st: State)
    requires found != [] && found[0].path !in st.processed && found[0].file.File?
    ensures EmitFiles(found, st).Success? <==> AllReadable(FirstOccurrences(found, st.processed))
    ensures EmitFiles(found, st).Success? ==>
      && AllReadable(FirstOccurrences(found, st.processed))
      && EmitFiles(found, st).value
         == State(st.processed + PathSet(found), st.doc + Blocks(FirstOccurrences(found, st.processed)))
    decreases |found|, 0
  {
    var f := found[0];
    var rest := found[1..];
    var st' := State(st.processed + {f.path}, st.doc + [Block(f)]);
    assert EmitFiles(found, st) == EmitFiles(rest, st');
    EmitFilesSpec(rest, st');
    var tail := FirstOccurrences(rest, st'.processed);
    assert FirstOccurrences(found, st.processed) == [f] + tail;
    BlocksOfCons(f, tail);
    if AllReadable(tail) {
      StateAfterFirst(found, st, tail);
    }
  }

  lemma StateAfterFirst(found: seq<Found>, st: State, tail: seq<Found>)
    requires found != [] && found[0].file.File? && AllReadable(tail)
    ensures st.processed + {found[0].path} + PathSet(found[1..]) == st.processed + PathSet(found)
    ensures st.doc + [Block(found[0])] + Blocks(tail) == st.doc + ([Block(found[0])] + Blocks(tail))
  {
    assert found == [found[0]] + found[1..];
    assert PathSet(found) == {found[0].path} + PathSet(found[1..]);
  }

  /** One rule: gather, then its heading and note, then the blocks of the
      files not processed before, in the order gathered. */
  lemma EmitRuleSpec(fs: FileSystem, r: Rule, st: State)
    ensures EmitRule(fs, r, st).Success? <==>
      && Gather(fs, r.baseDir, PatternsOf(r)).Success?
      && AllReadable(FirstOccurrences(FoundOf(r, Gather(fs, r.baseDir, PatternsOf(r)).value), st.processed))
    ensures EmitRule(fs, r, st).Success? ==>
      var found := FoundOf(r, Gather(fs, r.baseDir, PatternsOf(r)).value);
      && AllReadable(FirstOccurrences(found, st.processed))
      && EmitRule(fs, r, st).value
         == State(st.processed + PathSet(found), st.doc + Intro(r) + Blocks(FirstOccurrences(found, st.processed)))
  {
    var g := Gather(fs, r.baseDir, PatternsOf(r));
    if g.Success? {
      var found := FoundOf(r, g.value);
      EmitFilesSpec(found, State(st.processed, st.doc + Intro(r)));
    }
  }

  lemma AllReadableOfConcat(a: seq<Found>, b: seq<Found>)
    ensures AllReadable(a + b) <==> AllReadable(a) && AllReadable(b)
  {
    assert forall i :: 0 <= i < |a| ==> (a + b)[i] == a[i];
    assert forall i :: 0 <= i < |b| ==> (a + b)[|a| + i] == b[i];
  }

  lemma SectionFileBlocks(doc: seq<Piece>, intro: seq<Piece>, blocks: seq<Piece>)
    requires FileBlocks(intro) == [] && FileBlocks(blocks) == blocks
    ensures FileBlocks(doc + intro + blocks) == FileBlocks(doc) + blocks
  {
    FileBlocksOfConcat(doc, intro);
    FileBlocksOfConcat(doc + intro, blocks);
  }

  lemma SectionHeadings(doc: seq<Piece>, intro: seq<Piece>, blocks: seq<Piece>)
    requires Headings(blocks) == []
    ensures Headings(doc + intro + blocks) == Headings(doc) + Headings(intro)
  {
    HeadingsOfConcat(doc, intro);
    HeadingsOfConcat(doc + intro, blocks);
  }

  lemma SectionNotes(doc: seq<Piece>, intro: seq<Piece>, blocks: seq<Piece>)
    requires Notes(blocks) == []
    ensures Notes(doc + intro + blocks) == Notes(doc) + Notes(intro)
  {
    NotesOfConcat(doc, intro);
    NotesOfConcat(doc + intro, blocks);
  }

  /** The projections of a document after one rule's section. */
  lemma SectionProjections(doc: seq<Piece>, r: Rule, first: seq<Found>)
    requires AllReadable(first)
    ensures FileBlocks(doc + Intro(r) + Blocks(first)) == FileBlocks(doc) + Blocks(first)
    ensures Headings(doc + Intro(r) + Blocks(first))
            == Headings(doc) + (if r.sectionHeading != "" then [r.sectionHeading] else [])
    ensures Notes(doc + Intro(r) + Blocks(first))
            == Notes(doc) + (if r.description != "" then [r.description] else [])
  {
    ProjectionsOfIntro(r);
    ProjectionsOfBlocks(first);
    SectionFileBlocks(doc, Intro(r), Blocks(first));
    SectionHeadings(doc, Intro(r), Blocks(first));
    SectionNotes(doc, Intro(r), Blocks(first));
  }

  /** The outer loop: it fails exactly when some rule's gathering fails or
      a file to be emitted cannot be read; otherwise its file blocks are
      those of the gathered files with repeats dropped, and its headings and
      notes those of the rules, in order. */
  lemma {:induction false} EmitRulesSpec(fs: FileSystem, rules: seq<Rule>, st: State)
    ensures EmitRules(fs, rules, st).Success? <==>
      Gathered(fs, rules).Success? && AllReadable(FirstOccurrences(Gathered(fs, rules).value, st.processed))
    ensures EmitRules(fs, rules, st).Success? ==>
      var all := Gathered(fs, rules).value;
      var out := EmitRules(fs, rules, st).value;
      && AllReadable(FirstOccurrences(all, st.processed))
      && out.processed == st.processed + PathSet(all)
      && FileBlocks(out.doc) == FileBlocks(st.doc) + Blocks(FirstOccurrences(all, st.processed))
      && Headings(out.doc) == Headings(st.doc) + RuleHeadings(rules)
      && Notes(out.doc) == Notes(st.doc) + RuleNotes(rules)
    decreases |rules|, 1
  {
    if rules == [] {
      assert PathSet([]) == {};
      assert st.processed + {} == st.processed;
    } else if Gather(fs, rules[0].baseDir, PatternsOf(rules[0])).Success? {
      EmitRulesStepOutcome(fs, rules, st);
      EmitRulesStepResult(fs, rules, st);
    }
  }

  lemma PathSetOfConcat(a: seq<Found>, b: seq<Found>)
    ensures PathSet(a + b) == PathSet(a) + PathSet(b)
  {
    assert forall x :: x in a + b <==> x in a || x in b;
  }

  lemma RuleListsOfCons(r: Rule, rest: seq<Rule>)
    ensures RuleHeadings([r] + rest)
            == (if r.sectionHeading != "" then [r.sectionHeading] else []) + RuleHeadings(rest)
    ensures RuleNotes([r] + rest)
            == (if r.description != "" then [r.description] else []) + RuleNotes(rest)
  {
    assert ([r] + rest)[0] == r && ([r] + rest)[1..] == rest;
  }

  lemma ComposeFileBlocks(doc: seq<Piece>, r: Rule, first: seq<Found>, second: seq<Found>, out: seq<Piece>)
    requires AllReadable(first) && AllReadable(second)
    requires FileBlocks(out) == FileBlocks(doc + Intro(r) + Blocks(first)) + Blocks(second)
    ensures AllReadable(first + second)
    ensures FileBlocks(out) == FileBlocks(doc) + Blocks(first + second)
  {
    SectionProjections(doc, r, first);
    BlocksOfConcat(first, second);
  }

  lemma ComposeHeadings(doc: seq<Piece>, r: Rule, first: seq<Found>, rest: seq<Rule>, out: seq<Piece>)
    requires AllReadable(first)
    requires Headings(out) == Headings(doc + Intro(r) + Blocks(first)) + RuleHeadings(rest)
    ensures Headings(out) == Headings(doc) + RuleHeadings([r] + rest)
  {
    SectionProjections(doc, r, first);
    RuleListsOfCons(r, rest);
  }

  lemma ComposeNotes(doc: seq<Piece>, r: Rule, first: seq<Found>, rest: seq<Rule>, out: seq<Piece>)
    requires AllReadable(first)
    requires Notes(out) == Notes(doc + Intro(r) + Blocks(first)) + RuleNotes(rest)
    ensures Notes(out) == Notes(doc) + RuleNotes([r] + rest)
  {
    SectionProjections(doc, r, first);
    RuleListsOfCons(r, rest);
  }

  /** Whether the loop succeeds, after a first rule whose gathering does. */
  lemma {:induction false} EmitRulesStepOutcome(fs: FileSystem, rules: seq<Rule>, st: State)
    requires rules != [] && Gather(fs, rules[0].baseDir, PatternsOf(rules[0])).Success?
    ensures EmitRules(fs, rules, st).Success? <==>
      Gathered(fs, rules).Success? && AllReadable(FirstOccurrences(Gathered(fs, rules).value, st.processed))
    decreases |rules|, 0
  {
    var r := rules[0];
    EmitRuleSpec(fs, r, st);
    var found := FoundOf(r, Gather(fs, r.baseDir, PatternsOf(r)).value);
    var gr := Gathered(fs, rules[1..]);
    assert gr.Success? ==> Gathered(fs, rules) == Success(found + gr.value);
    if gr.Success? {
      ReadableAfterFirst(found, gr.value, st.processed);
    }
    if AllReadable(FirstOccurrences(found, st.processed)) {
      var st1 := EmitRule(fs, r, st).value;
      assert EmitRules(fs, rules, st) == EmitRules(fs, rules[1..], st1);
      EmitRulesSpec(fs, rules[1..], st1);
    }
  }

  /** What a successful loop leaves, after a first rule whose gathering
      succeeds. */
  lemma {:induction false} EmitRulesStepResult(fs: FileSystem, rules: seq<Rule>, st: State)
    requires rules != [] && Gather(fs, rules[0].baseDir, PatternsOf(rules[0])).Success?
    ensures EmitRules(fs, rules, st).Success? ==>
      && Gathered(fs, rules).Success?
      && var all := Gathered(fs, rules).value;
      var out := EmitRules(fs, rules, st).value;
      && AllReadable(FirstOccurrences(all, st.processed))
      && out.processed == st.processed + PathSet(all)
      && FileBlocks(out.doc) == FileBlocks(st.doc) + Blocks(FirstOccurrences(all, st.processed))
      && Headings(out.doc) == Headings(st.doc) + RuleHeadings(rules)
      && Notes(out.doc) == Notes(st.doc) + RuleNotes(rules)
    decreases |rules|, 0
  {
    var r := rules[0];
    EmitRuleSpec(fs, r, st);
    var found := FoundOf(r, Gather(fs, r.baseDir, PatternsOf(r)).value);
    if EmitRules(fs, rules, st).Success? {
      var st1 := EmitRule(fs, r, st).value;
      assert EmitRules(fs, rules, st) == EmitRules(fs, rules[1..], st1);
      EmitRulesSpec(fs, rules[1..], st1);
      var gr := Gathered(fs, rules[1..]).value;
      assert Gathered(fs, rules) == Success(found + gr);
      ReadableAfterFirst(found, gr, st.processed);
      assert rules == [r] + rules[1..];
      ComposeRulesStep(st, r, rules[1..], found, gr, EmitRules(fs, rules, st).value);
    }
  }

  /** The files to emit from two runs are all readable exactly when those of
      each run, the second after the first's paths, are. */
  lemma ReadableAfterFirst(found: seq<Found>, tail: seq<Found>, seen: set<string>)
    ensures AllReadable(FirstOccurrences(found + tail, seen)) <==>
      AllReadable(FirstOccurrences(found, seen)) && AllReadable(FirstOccurrences(tail, seen + PathSet(found)))
  {
    FirstOccurrencesOfConcat(found, tail, seen);
    AllReadableOfConcat(FirstOccurrences(found, seen), FirstOccurrences(tail, seen + PathSet(found)));
  }

  /** The first rule's section followed by the rest of the loop is the loop
      over all the rules. */
  lemma ComposeRulesStep(st: State, r: Rule, rest: seq<Rule>, found: seq<Found>, tail: seq<Found>, out: State)
    requires AllReadable(FirstOccurrences(found, st.processed))
    requires AllReadable(FirstOccurrences(tail, st.processed + PathSet(found)))
    requires out.processed == st.processed + PathSet(found) + PathSet(tail)
    requires FileBlocks(out.doc) == FileBlocks(st.doc + Intro(r) + Blocks(FirstOccurrences(found, st.processed)))
                                    + Blocks(FirstOccurrences(tail, st.processed + PathSet(found)))
    requires Headings(out.doc) == Headings(st.doc + Intro(r) + Blocks(FirstOccurrences(found, st.processed))) + RuleHeadings(rest)
    requires Notes(out.doc) == Notes(st.doc + Intro(r) + Blocks(FirstOccurrences(found, st.processed))) + RuleNotes(rest)
    ensures AllReadable(FirstOccurrences(found + tail, st.processed))
    ensures out.processed == st.processed + PathSet(found + tail)
    ensures FileBlocks(out.doc) == FileBlocks(st.doc) + Blocks(FirstOccurrences(found + tail, st.processed))
    ensures Headings(out.doc) == Headings(st.doc) + RuleHeadings([r] + rest)
    ensures Notes(out.doc) == Notes(st.doc) + RuleNotes([r] + rest)
  {
    var first := FirstOccurrences(found, st.processed);
    var second := FirstOccurrences(tail, st.processed + PathSet(found));
    FirstOccurrencesOfConcat(found, tail, st.processed);
    PathSetOfConcat(found, tail);
    ComposeFileBlocks(st.doc, r, first, second, out.doc);
    ComposeHeadings(st.doc, r, first, rest, out.doc);
    ComposeNotes(st.doc, r, first, rest, out.doc);
  }

  /** Grouping by rule loses nothing: the groups are each rule's gathered
      files, and flattened they are the files of `Gathered`. */
  lemma {:induction false} GatheredByRuleSpec(fs: FileSystem, rules: seq<Rule>)
    ensures GatheredByRule(fs, rules).Success? <==> Gathered(fs, rules).Success?
    ensures GatheredByRule(fs, rules).Success? ==>
      && Flatten(GatheredByRule(fs, rules).value) == Gathered(fs, rules).value
      && forall i :: 0 <= i < |rules| ==>
           && Gather(fs, rules[i].baseDir, PatternsOf(rules[i])).Success?
           && GatheredByRule(fs, rules).value[i]
              == FoundOf(rules[i], Gather(fs, rules[i].baseDir, PatternsOf(rules[i])).value)
    decreases |rules|
  {
    if rules != [] {
      GatheredByRuleSpec(fs, rules[1..]);
      var g := GatheredByRule(fs, rules);
      if g.Success? {
        var tail := GatheredByRule(fs, rules[1..]).value;
        assert g.value == [g.value[0]] + tail;
        assert g.value[1..] == tail;
        forall i | 1 <= i < |rules|
          ensures Gather(fs, rules[i].baseDir, PatternsOf(rules[i])).Success?
          ensures g.value[i] == FoundOf(rules[i], Gather(fs, rules[i].baseDir, PatternsOf(rules[i])).value)
        {
          assert rules[i] == rules[1..][i - 1] && g.value[i] == tail[i - 1];
        }
      }
    }
  }

  /** The outer loop against the section-by-section reference: it fails
      exactly when some gathering fails or a file to be emitted cannot be
      read, and otherwise appends the sections of the rules in order. */
  lemma {:induction false} EmitRulesDocument(fs: FileSystem, rules: seq<Rule>, st: State)
    ensures EmitRules(fs, rules, st).Success? <==>
      && GatheredByRule(fs, rules).Success?
      && AllReadable(FirstOccurrences(Flatten(GatheredByRule(fs, rules).value), st.processed))
    ensures EmitRules(fs, rules, st).Success? ==>
      && GatheredByRule(fs, rules).Success?
      && AllReadable(FirstOccurrences(Flatten(GatheredByRule(fs, rules).value), st.processed))
      && EmitRules(fs, rules, st).value.doc
         == st.doc + Document(rules, GatheredByRule(fs, rules).value, st.processed)
    decreases |rules|, 1
  {
    if rules == [] {
      assert st.doc + [] == st.doc;
    } else if Gather(fs, rules[0].baseDir, PatternsOf(rules[0])).Success? {
      EmitRulesDocumentStep(fs, rules, st);
    }
  }

  lemma DocumentOfCons(r: Rule, rest: seq<Rule>, found: seq<Found>, groups: seq<seq<Found>>, seen: set<string>)
    requires |groups| == |rest|
    requires AllReadable(FirstOccurrences(found, seen))
    requires AllReadable(FirstOccurrences(Flatten(groups), seen + PathSet(found)))
    ensures Flatten([found] + groups) == found + Flatten(groups)
    ensures AllReadable(FirstOccurrences(Flatten([found] + groups), seen))
    ensures Document([r] + rest, [found] + groups, seen)
            == Intro(r) + Blocks(FirstOccurrences(found, seen)) + Document(rest, groups, seen + PathSet(found))
  {
    var gs := [found] + groups;
    assert gs[0] == found && gs[1..] == groups;
    assert ([r] + rest)[0] == r && ([r] + rest)[1..] == rest;
    FirstOccurrencesOfConcat(found, Flatten(groups), seen);
    AllReadableOfConcat(FirstOccurrences(found, seen), FirstOccurrences(Flatten(groups), seen + PathSet(found)));
  }

  /** Grouping after the first rule: the first group is that rule's files,
      and the readability of the whole splits at it. */
  lemma GatheredByRuleCons(fs: FileSystem, rules: seq<Rule>, seen: set<string>)
    requires rules != [] && Gather(fs, rules[0].baseDir, PatternsOf(rules[0])).Success?
    ensures var found := FoundOf(rules[0], Gather(fs, rules[0].baseDir, PatternsOf(rules[0])).value);
      var gr := GatheredByRule(fs, rules[1..]);
      && (GatheredByRule(fs, rules).Success? <==> gr.Success?)
      && (gr.Success? ==>
           && GatheredByRule(fs, rules).value == [found] + gr.value
           && (AllReadable(FirstOccurrences(Flatten([found] + gr.value), seen)) <==>
                 AllReadable(FirstOccurrences(found, seen))
                 && AllReadable(FirstOccurrences(Flatten(gr.value), seen + PathSet(found)))))
  {
    var found := FoundOf(rules[0], Gather(fs, rules[0].baseDir, PatternsOf(rules[0])).value);
    var gr := GatheredByRule(fs, rules[1..]);
    if gr.Success? {
      assert ([found] + gr.value)[0] == found && ([found] + gr.value)[1..] == gr.value;
      FirstOccurrencesOfConcat(found, Flatten(gr.value), seen);
      AllReadableOfConcat(FirstOccurrences(found, seen), FirstOccurrences(Flatten(gr.value), seen + PathSet(found)));
    }
  }

  lemma {:induction false} EmitRulesDocumentStep(fs: FileSystem, rules: seq<Rule>, st: State)
    requires rules != [] && Gather(fs, rules[0].baseDir, PatternsOf(rules[0])).Success?
    ensures EmitRules(fs, rules, st).Success? <==>
      && GatheredByRule(fs, rules).Success?
      && AllReadable(FirstOccurrences(Flatten(GatheredByRule(fs, rules).value), st.processed))
    ensures EmitRules(fs, rules, st).Success? ==>
      && GatheredByRule(fs, rules).Success?
      && AllReadable(FirstOccurrences(Flatten(GatheredByRule(fs, rules).value), st.processed))
      && EmitRules(fs, rules, st).value.doc
         == st.doc + Document(rules, GatheredByRule(fs, rules).value, st.processed)
    decreases |rules|, 0
  {
    var r := rules[0];
    EmitRuleSpec(fs, r, st);
    GatheredByRuleCons(fs, rules, st.processed);
    var found := FoundOf(r, Gather(fs, r.baseDir, PatternsOf(r)).value);
    var first := FirstOccurrences(found, st.processed);
    if AllReadable(first) {
      var st1 := State(st.processed + PathSet(found), st.doc + Intro(r) + Blocks(first));
      assert EmitRules(fs, rules, st) == EmitRules(fs, rules[1..], st1);
      EmitRulesDocument(fs, rules[1..], st1);
      if EmitRules(fs, rules, st).Success? {
        DocumentAfter(rules, found, GatheredByRule(fs, rules[1..]).value, st.processed, st.doc);
      }
    }
  }

  lemma DocumentAfter(rules: seq<Rule>, found: seq<Found>, tail: seq<seq<Found>>, seen: set<string>, doc: seq<Piece>)
    requires rules != [] && |tail| == |rules| - 1
    requires AllReadable(FirstOccurrences(found, seen))
    requires AllReadable(FirstOccurrences(Flatten(tail), seen + PathSet(found)))
    ensures AllReadable(FirstOccurrences(Flatten([found] + tail), seen))
    ensures doc + Intro(rules[0]) + Blocks(FirstOccurrences(found, seen)) + Document(rules[1..], tail, seen + PathSet(found))
            == doc + Document(rules, [found] + tail, seen)
  {
    assert rules == [rules[0]] + rules[1..];
    DocumentOfCons(rules[0], rules[1..], found, tail, seen);
  }

  /** The document of one output, section by section. */
  lemma AssembleDocument(fs: FileSystem, rules: seq<Rule>)
    ensures Assemble(fs, rules).Success? <==>
      && GatheredByRule(fs, rules).Success?
      && AllReadable(FirstOccurrences(Flatten(GatheredByRule(fs, rules).value), {}))
    ensures Assemble(fs, rules).Success? ==>
      && GatheredByRule(fs, rules).Success?
      && AllReadable(FirstOccurrences(Flatten(GatheredByRule(fs, rules).value), {}))
      && Assemble(fs, rules).value == Document(rules, GatheredByRule(fs, rules).value, {})
  {
    EmitRulesDocument(fs, rules, State({}, []));
    if Assemble(fs, rules).Success? {
      assert [] + Document(rules, GatheredByRule(fs, rules).value, {})
             == Document(rules, GatheredByRule(fs, rules).value, {});
    }
  }

  /** The document of one output: it exists exactly when every rule's
      gathering succeeds and every file to be emitted can be read; then it
      holds one block per gathered path, at the path's first occurrence
      across the rules in order, and the non-empty headings and notes of
      the rules in order. */
  lemma AssembleSpec(fs: FileSystem, rules: seq<Rule>)
    ensures Assemble(fs, rules).Success? <==>
      Gathered(fs, rules).Success? && AllReadable(FirstOccurrences(Gathered(fs, rules).value, {}))
    ensures Assemble(fs, rules).Success? ==>
      var first := FirstOccurrences(Gathered(fs, rules).value, {});
      && AllReadable(first)
      && FileBlocks(Assemble(fs, rules).value) == Blocks(first)
      && Headings(Assemble(fs, rules).value) == RuleHeadings(rules)
      && Notes(Assemble(fs, rules).value) == RuleNotes(rules)
  {
    EmitRulesSpec(fs, rules, State({}, []));
  }

  /** `processRules` fails exactly when some rule's gathering fails or a
      file to be emitted cannot be read; otherwise the text written is that
      of the document section by section: each rule's heading and note
      directly followed by the blocks of its files not produced before,
      rule after rule. */
  lemma ProcessRulesSpec(fs: FileSystem, rules: seq<Rule>)
    ensures ProcessRules(fs, rules).Success? <==>
      && GatheredByRule(fs, rules).Success?
      && AllReadable(FirstOccurrences(Flatten(GatheredByRule(fs, rules).value), {}))
    ensures ProcessRules(fs, rules).Success? ==>
      && GatheredByRule(fs, rules).Success?
      && AllReadable(FirstOccurrences(Flatten(GatheredByRule(fs, rules).value), {}))
      && ProcessRules(fs, rules).value == DocText(Document(rules, GatheredByRule(fs, rules).value, {}))
  {
    AssembleDocument(fs, rules);
  }

  lemma BlockPaths(found: seq<Found>)
    requires AllReadable(found)
    ensures |Blocks(found)| == |found|
    ensures forall i :: 0 <= i < |found| ==> Blocks(found)[i].path == found[i].path
  {
  }

  /** The blocks of the first occurrences: distinct paths, every path once. */
  lemma BlocksOfFirstOccurrencesDistinct(all: seq<Found>)
    requires AllReadable(FirstOccurrences(all, {}))
    ensures var blocks := Blocks(FirstOccurrences(all, {}));
      && (forall i, j :: 0 <= i < j < |blocks| ==> blocks[i].path != blocks[j].path)
      && (forall p :: p in PathSet(all) <==> exists i :: 0 <= i < |blocks| && blocks[i].path == p)
  {
    var first := FirstOccurrences(all, {});
    BlockPaths(first);
    FirstOccurrencesDistinct(all, {});
    FirstOccurrencesPaths(all, {});
    assert PathSet(first) == PathSet(all);
    BlocksCoverPaths(first);
  }

  lemma BlocksCoverPaths(found: seq<Found>)
    requires AllReadable(found)
    ensures forall p :: p in PathSet(found) <==> exists i :: 0 <= i < |Blocks(found)| && Blocks(found)[i].path == p
  {
    var blocks := Blocks(found);
    BlockPaths(found);
    forall p | p in PathSet(found)
      ensures exists i :: 0 <= i < |blocks| && blocks[i].path == p
    {
      var f :| f in found && f.path == p;
      var i :| 0 <= i < |found| && found[i] == f;
      assert blocks[i].path == p;
    }
    forall p | exists i :: 0 <= i < |blocks| && blocks[i].path == p
      ensures p in PathSet(found)
    {
      var i :| 0 <= i < |blocks| && blocks[i].path == p;
      assert found[i] in found;
    }
  }

  /** The blocks of the first occurrences: each is the block of its path's
      first occurrence, in the order of those occurrences. */
  lemma BlocksOfFirstOccurrencesAtFirstIndex(all: seq<Found>)
    requires AllReadable(FirstOccurrences(all, {}))
    ensures var blocks := Blocks(FirstOccurrences(all, {}));
      && (forall i :: 0 <= i < |blocks| ==>
            blocks[i].path in PathSet(all) && all[FirstIndex(all, blocks[i].path)].file.File?
            && blocks[i] == Block(all[FirstIndex(all, blocks[i].path)]))
      && (forall i, j :: 0 <= i < j < |blocks| ==>
            FirstIndex(all, blocks[i].path) < FirstIndex(all, blocks[j].path))
  {
    var first := FirstOccurrences(all, {});
    BlockPaths(first);
    FirstOccurrencesAtFirstIndex(all, {});
  }

  /** Within one document every gathered path gets exactly one block. */
  lemma OneBlockPerPath(fs: FileSystem, rules: seq<Rule>)
    requires Assemble(fs, rules).Success?
    ensures Gathered(fs, rules).Success?
    ensures var blocks := FileBlocks(Assemble(fs, rules).value);
      && (forall i, j :: 0 <= i < j < |blocks| ==> blocks[i].path != blocks[j].path)
      && (forall p :: p in PathSet(Gathered(fs, rules).value) <==>
            exists i :: 0 <= i < |blocks| && blocks[i].path == p)
  {
    AssembleSpec(fs, rules);
    BlocksOfFirstOccurrencesDistinct(Gathered(fs, rules).value);
  }

  /** Each block of a document is the one for its path's first occurrence
      across the rules, and the blocks follow the order of first
      occurrences. */
  lemma BlocksAtFirstOccurrence(fs: FileSystem, rules: seq<Rule>)
    requires Assemble(fs, rules).Success?
    ensures Gathered(fs, rules).Success?
    ensures var blocks := FileBlocks(Assemble(fs, rules).value);
      var all := Gathered(fs, rules).value;
      && (forall i :: 0 <= i < |blocks| ==>
            blocks[i].path in PathSet(all) && all[FirstIndex(all, blocks[i].path)].file.File?
            && blocks[i] == Block(all[FirstIndex(all, blocks[i].path)]))
      && (forall i, j :: 0 <= i < j < |blocks| ==>
            FirstIndex(all, blocks[i].path) < FirstIndex(all, blocks[j].path))
  {
    AssembleSpec(fs, rules);
    BlocksOfFirstOccurrencesAtFirstIndex(Gathered(fs, rules).value);
  }

  /** The path of the first file in `found` that cannot be read. */
  function FirstUnreadable(found: seq<Found>): (r: Option<string>)
    decreases |found|
  {
    if found == [] then None
    else if !found[0].file.File? then Some(found[0].path)
    else FirstUnreadable(found[1..])
  }

  /** `FirstUnreadable` finds nothing exactly when every file is readable,
      and otherwise the path of an unreadable file with only readable files
      before it. */
  lemma {:induction false} FirstUnreadableSpec(found: seq<Found>)
    ensures FirstUnreadable(found).None? <==> AllReadable(found)
    ensures FirstUnreadable(found).Some? ==>
      exists j :: 0 <= j < |found| && found[j].path == FirstUnreadable(found).value
        && !found[j].file.File? && AllReadable(found[..j])
    decreases |found|
  {
    if found != [] {
      FirstUnreadableSpec(found[1..]);
      if !found[0].file.File? {
        assert found[..0] == [];
      } else {
        if FirstUnreadable(found[1..]).Some? {
          var j :| 0 <= j < |found[1..]| && found[1..][j].path == FirstUnreadable(found[1..]).value
            && !found[1..][j].file.File? && AllReadable(found[1..][..j]);
          assert found[..j + 1] == [found[0]] + found[1..][..j];
          assert found[j + 1] == found[1..][j];
        } else {
          assert forall i :: 1 <= i < |found| ==> found[i] == found[1..][i - 1];
        }
      }
    }
  }

  /** An aborted file loop stops at the first file it has to emit that
      cannot be read, and reports that file. */
  lemma {:induction false} EmitFilesFailure(found: seq<Found>, st: State)
    requires EmitFiles(found, st).Failure?
    ensures FirstUnreadable(FirstOccurrences(found, st.processed)).Some?
    ensures EmitFiles(found, st).error == FileFailed(FirstUnreadable(FirstOccurrences(found, st.processed)).value)
    decreases |found|
  {
    var f := found[0];
    if f.path in st.processed {
      EmitFilesFailure(found[1..], st);
    } else {
      var tail := FirstOccurrences(found[1..], st.processed + {f.path});
      assert FirstOccurrences(found, st.processed) == [f] + tail;
      assert ([f] + tail)[1..] == tail;
      if f.file.File? {
        EmitFilesFailure(found[1..], State(st.processed + {f.path}, st.doc + [Block(f)]));
      }
    }
  }

  /** How rule `r` ends the loop with `err`, given the paths `before` it
      processed: its gathering fails with that very error, or its gathering
      succeeds and `err` names the first unreadable file among its files
      whose paths are not in `before`. */
  predicate CausedBy(fs: FileSystem, r: Rule, before: set<string>, err: AssembleError) {
    var g := Gather(fs, r.baseDir, PatternsOf(r));
    match err
    case GatherFailed(e) => g == Failure(e)
    case FileFailed(p) =>
      g.Success? && FirstUnreadable(FirstOccurrences(FoundOf(r, g.value), before)) == Some(p)
  }

  /** Starting from `seen`, the rules before `i` gather and read without
      error, and rule `i` then ends the loop with `err`. */
  predicate FailsAt(fs: FileSystem, rules: seq<Rule>, seen: set<string>, i: nat, err: AssembleError) {
    && i < |rules|
    && GatheredByRule(fs, rules[..i]).Success?
    && AllReadable(FirstOccurrences(Flatten(GatheredByRule(fs, rules[..i]).value), seen))
    && CausedBy(fs, rules[i], seen + PathSet(Flatten(GatheredByRule(fs, rules[..i]).value)), err)
  }

  lemma FailsAtFirst(fs: FileSystem, rules: seq<Rule>, seen: set<string>, err: AssembleError)
    requires rules != [] && CausedBy(fs, rules[0], seen, err)
    ensures FailsAt(fs, rules, seen, 0, err)
  {
    assert rules[..0] == [];
    assert seen + PathSet([]) == seen;
  }

  lemma FailsAtLater(fs: FileSystem, rules: seq<Rule>, seen: set<string>, found: seq<Found>, i: nat, err: AssembleError)
    requires rules != [] && Gather(fs, rules[0].baseDir, PatternsOf(rules[0])).Success?
    requires found == FoundOf(rules[0], Gather(fs, rules[0].baseDir, PatternsOf(rules[0])).value)
    ensures AllReadable(FirstOccurrences(found, seen)) && FailsAt(fs, rules[1..], seen + PathSet(found), i, err)
            ==> FailsAt(fs, rules, seen, i + 1, err)
  {
    if AllReadable(FirstOccurrences(found, seen)) && FailsAt(fs, rules[1..], seen + PathSet(found), i, err) {
      var pre := rules[..i + 1];
      assert pre[0] == rules[0] && pre[1..] == rules[1..][..i];
      assert rules[i + 1] == rules[1..][i];
      GatheredByRuleCons(fs, pre, seen);
      var tail := GatheredByRule(fs, rules[1..][..i]).value;
      assert Flatten([found] + tail) == found + Flatten(tail) by {
        assert ([found] + tail)[1..] == tail;
      }
      PathSetOfConcat(found, Flatten(tail));
      assert seen + PathSet(found) + PathSet(Flatten(tail)) == seen + PathSet(found + Flatten(tail));
    }
  }

  /** The loop stops at the first rule that fails: the rules before it
      succeed, and the error is that rule's failed gathering or its first
      unreadable file among the paths not processed before. */
  lemma {:induction false} EmitRulesFailure(fs: FileSystem, rules: seq<Rule>, st: State)
    requires EmitRules(fs, rules, st).Failure?
    ensures exists i: nat :: FailsAt(fs, rules, st.processed, i, EmitRules(fs, rules, st).error)
    decreases |rules|
  {
    var r := rules[0];
    var g := Gather(fs, r.baseDir, PatternsOf(r));
    var err := EmitRules(fs, rules, st).error;
    if g.Failure? {
      assert err == GatherFailed(g.error);
      FailsAtFirst(fs, rules, st.processed, err);
    } else {
      var found := FoundOf(r, g.value);
      var mid := State(st.processed, st.doc + Intro(r));
      if EmitFiles(found, mid).Failure? {
        EmitFilesFailure(found, mid);
        FailsAtFirst(fs, rules, st.processed, err);
      } else {
        var next := EmitFiles(found, mid).value;
        EmitFilesSpec(found, mid);
        assert EmitRules(fs, rules, st) == EmitRules(fs, rules[1..], next);
        EmitRulesFailure(fs, rules[1..], next);
        var i: nat :| FailsAt(fs, rules[1..], next.processed, i, err);
        FailsAtLater(fs, rules, st.processed, found, i, err);
      }
    }
  }

  /** `processRules` returns the first error: there is a rule `i` such that
      the rules before it alone would write their document, and the error
      is rule `i`'s failed gathering or its first unreadable file not
      emitted before. */
  lemma ProcessRulesFailure(fs: FileSystem, rules: seq<Rule>)
    requires ProcessRules(fs, rules).Failure?
    ensures exists i: nat :: FailsAt(fs, rules, {}, i, ProcessRules(fs, rules).error)
              && ProcessRules(fs, rules[..i]).Success?
  {
    EmitRulesFailure(fs, rules, State({}, []));
    var i: nat :| FailsAt(fs, rules, {}, i, ProcessRules(fs, rules).error);
    ProcessRulesSpec(fs, rules[..i]);
  }

  /** A rule with an empty base directory (a rule whose `base_dir` is left
      out) fails the whole document, whatever the tree holds: `os.Lstat`
      of the empty path fails. */
  lemma EmptyBaseDirFails(fs: FileSystem, rules: seq<Rule>, i: nat)
    requires i < |rules| && rules[i].baseDir == ""
    ensures ProcessRules(fs, rules).Failure?
    ensures i == 0 ==> ProcessRules(fs, rules) == Failure(GatherFailed(StatFailed("")))
  {
    ProcessRulesSpec(fs, rules);
    GatheredByRuleSpec(fs, rules);
  }

  /** Gathering a directory that holds one wanted file finds just it. */
  lemma GatherOneFile(base: string, d: string, name: string, content: string, ps: Patterns)
    requires base != "" && ps.excludeDirs == [] && Wanted(name, ps)
    ensures Gather(map[base := Dir(d, [File(name, content)])], base, ps)
            == Success([Hit([name], File(name, content))])
  {
    var e := File(name, content);
    assert [] + [name] == [name];
    assert NodeName(base, [name]) == name;
    assert Walk(base, [name], e, ps) == Success([Hit([name], e)]);
    assert [e][1..] == [];
    assert [Hit([name], e)] + [] == [Hit([name], e)];
    assert WalkChildren(base, [], [e], ps) == Success([Hit([name], e)]);
  }

  lemma FoundOfOneHit(r: Rule, name: string, e: Entry)
    ensures FoundOf(r, [Hit([name], e)]) == [Found(Join(r.baseDir, name), name, e)]
  {
    assert [name][..0] == [];
    assert PathOf(r.baseDir, [name]) == Join(r.baseDir, name);
    assert Rel([name]) == name;
  }

  lemma EmitOneFile(fs: FileSystem, r: Rule, name: string, e: Entry)
    requires e.File? && r.sectionHeading != "" && r.description == ""
    requires Gather(fs, r.baseDir, PatternsOf(r)) == Success([Hit([name], e)])
    ensures var f := Found(Join(r.baseDir, name), name, e);
      Assemble(fs, [r]) == Success([Heading(r.sectionHeading), Block(f)])
  {
    var f := Found(Join(r.baseDir, name), name, e);
    FoundOfOneHit(r, name, e);
    var st := State({f.path}, [Heading(r.sectionHeading), Block(f)]);
    assert Intro(r) == [Heading(r.sectionHeading)];
    assert EmitFiles([f], State({}, Intro(r))) == Success(st) by {
      assert [f][1..] == [];
      assert {} + {f.path} == {f.path};
      assert Intro(r) + [Block(f)] == st.doc;
    }
    assert [] + Intro(r) == Intro(r);
    assert EmitRule(fs, r, State({}, [])) == EmitFiles([f], State({}, Intro(r)));
    assert [r][1..] == [];
    assert EmitRules(fs, [r], State({}, [])) == Success(st);
  }

  lemma TwoPieceText(h: string, f: Found)
    requires f.file.File?
    ensures DocText([Heading(h), Block(f)])
      == "## " + h + "\n\n" + ("### File: `" + f.rel + "`\n" + RenderFile(f.path, f.file.content) + "\n\n")
  {
    var doc := [Heading(h), Block(f)];
    assert doc[1..] == [Block(f)] && [Block(f)][1..] == [];
    assert DocText([Block(f)]) == PieceText(Block(f)) + "";
    assert DocText(doc) == PieceText(Heading(h)) + PieceText(Block(f));
  }

  /** A rule over a directory holding one wanted file: the document is the
      rule's heading followed by the file's block. */
  lemma OneFileRule(d: string, name: string, content: string, r: Rule)
    requires r.baseDir != "" && r.excludeDirs == [] && r.sectionHeading != "" && r.description == ""
    requires Wanted(name, PatternsOf(r))
    ensures ProcessRules(map[r.baseDir := Dir(d, [File(name, content)])], [r])
      == Success("## " + r.sectionHeading + "\n\n"
                 + ("### File: `" + name + "`\n" + RenderFile(Join(r.baseDir, name), content) + "\n\n"))
  {
    var fs := map[r.baseDir := Dir(d, [File(name, content)])];
    var e := File(name, content);
    GatherOneFile(r.baseDir, d, name, content, PatternsOf(r));
    EmitOneFile(fs, r, name, e);
    TwoPieceText(r.sectionHeading, Found(Join(r.baseDir, name), name, e));
  }

  lemma ExampleWanted(stem: string)
    requires Separator !in stem
    ensures Wanted(stem + ".go", Patterns(["*.go"], [], []))
  {
    var name := stem + ".go";
    assert "*.go" == "*" + ".go";
    assert Glob.EndsWithAfterPlainPrefix(name, ".go") by {
      assert name[|name| - 3..] == ".go" && name[..|name| - 3] == stem;
    }
    Glob.SuffixPatternMatches(".go", name);
    assert Glob.Match(["*.go"][0], name);
  }

  lemma ExampleBlock(base: string, stem: string, content: string)
    requires Separator !in stem
    ensures RenderFile(Join(base, stem + ".go"), content) == "```go\n" + content + "\n```"
  {
    GoFileIsTaggedGo(base, stem);
    assert RenderFile(Join(base, stem + ".go"), content) == Fence + "go" + "\n" + content + "\n" + Fence;
    assert Fence + "go" + "\n" + content + "\n" + Fence == "```go\n" + content + "\n```";
  }

  /** The worked example of the document format: a `Src` rule including
      `*.go` over a base directory holding one `.go` file, whatever the
      directory and the file are called and whatever the file holds. */
  lemma GoFileExample(base: string, stem: string, content: string)
    requires base != "" && Separator !in stem
    ensures var name := stem + ".go";
      ProcessRules(map[base := Dir(base, [File(name, content)])],
                   [Rule(base, ["*.go"], [], [], "Src", "")])
      == Success("## Src\n\n### File: `" + name + "`\n```go\n" + content + "\n```\n\n")
  {
    var name := stem + ".go";
    assert "## " + "Src" + "\n\n" + ("### File: `" + name + "`\n" + ("```go\n" + content + "\n```") + "\n\n")
           == "## Src\n\n### File: `" + name + "`\n```go\n" + content + "\n```\n\n";
    ExampleWanted(stem);
    OneFileRule(base, name, content, Rule(base, ["*.go"], [], [], "Src", ""));
    ExampleBlock(base, stem, content);
  }
}

=== FILE: glob.dfy ===
/** Shell-glob matching of one path component, as Go's `filepath.Match`
    does it on a Unix host: `*` matches any run of non-separator
    characters, `?` one non-separator character, `[...]` / `[^...]` a
    character class of single characters and `lo-hi` ranges, and `\`
    escapes the next character. A pattern is first parsed into tokens; a
    pattern that does not parse is malformed, and since the caller discards
    the error, a malformed pattern simply matches nothing. */
module Glob {
  import opened Wrappers
  import opened Paths

  datatype Range = Range(lo: char, hi: char)

  datatype Token =
    | Star                                      // `*`
    | AnyChar                                   // `?`
    | Lit(c: char)                              // a literal, possibly `\`-escaped
    | Class(negated: bool, ranges: seq<Range>)  // `[...]` or `[^...]`

  /** The characters that are not literals outside a class. */
  predicate IsMeta(c: char) {
    c == '*' || c == '?' || c == '[' || c == '\\'
  }

  predicate NoMeta(p: string) {
    forall i :: 0 <= i < |p| ==> !IsMeta(p[i])
  }

  /** One character inside a class, honouring a `\` escape. Malformed when
      the class ends here, or the character is an unescaped `-` or `]`.
      On success something of the pattern must remain after it. */
  function ClassChar(s: string): (r: Option<(char, string)>)
    ensures r.Some? ==> 0 < |r.value.1| < |s|
  {
    if |s| == 0 || s[0] == '-' || s[0] == ']' then None
    else if s[0] == '\\' then
      if |s| <= 2 then None else Some((s[1], s[2..]))
    else if |s| == 1 then None
    else Some((s[0], s[1..]))
  }

  /** The ranges of a class up to its closing `]`, which closes the class
      only once at least one range has been read. */
  function ParseRanges(s: string, acc: seq<Range>): (r: Option<(seq<Range>, string)>)
    ensures r.Some? ==> r.value.0 != [] && |r.value.1| < |s|
    decreases |s|
  {
    if |s| > 0 && s[0] == ']' && acc != [] then Some((acc, s[1..]))
    else
      match ClassChar(s)
      case None => None
      case Some((lo, s1)) =>
        if s1[0] == '-' then
          match ClassChar(s1[1..])
          case None => None
          case Some((hi, s2)) => ParseRanges(s2, acc + [Range(lo, hi)])
        else ParseRanges(s1, acc + [Range(lo, lo)])
  }

  function Prepend(t: Token, rest: Option<seq<Token>>): Option<seq<Token>> {
    match rest
    case None => None
    case Some(ts) => Some([t] + ts)
  }

  /** Tokenizes a pattern; `None` when it is malformed. */
  function Parse(p: string): Option<seq<Token>>
    decreases |p|
  {
    if p == [] then Some([])
    else if p[0] == '*' then Prepend(Star, Parse(p[1..]))
    else if p[0] == '?' then Prepend(AnyChar, Parse(p[1..]))
    else if p[0] == '\\' then
      if |p| == 1 then None else Prepend(Lit(p[1]), Parse(p[2..]))
    else if p[0] == '[' then
      var negated := |p| > 1 && p[1] == '^';
      match ParseRanges(p[if negated then 2 else 1..], [])
      case None => None
      case Some((ranges, rest)) => Prepend(Class(negated, ranges), Parse(rest))
    else Prepend(Lit(p[0]), Parse(p[1..]))
  }

  predicate InRanges(c: char, ranges: seq<Range>) {
    exists i :: 0 <= i < |ranges| && ranges[i].lo <= c <= ranges[i].hi
  }

  /** Whether the token sequence matches the whole of `s`. */
  function MatchTokens(ts: seq<Token>, s: string): (r: bool)
    ensures r && (forall i :: 0 <= i < |ts| ==> !ts[i].Star?) ==> |s| == |ts|
    decreases |s|, |ts|
  {
    if ts == [] then s == []
    else match ts[0]
      case Star =>
        MatchTokens(ts[1..], s) || (|s| > 0 && s[0] != Separator && MatchTokens(ts, s[1..]))
      case AnyChar =>
        |s| > 0 && s[0] != Separator && MatchTokens(ts[1..], s[1..])
      case Lit(c) =>
        |s| > 0 && s[0] == c && MatchTokens(ts[1..], s[1..])
      case Class(negated, ranges) =>
        |s| > 0 && InRanges(s[0], ranges) != negated && MatchTokens(ts[1..], s[1..])
  }

  /** `filepath.Match(pattern, name)` with its error discarded. */
  function Match(pattern: string, name: string): (r: bool)
    ensures r ==> Parse(pattern).Some?
  {
    match Parse(pattern)
    case None => false
    case Some(ts) => MatchTokens(ts, name)
  }

  /** `matchesAny`: some pattern of the list matches, tried in order. */
  function MatchesAny(patterns: seq<string>, name: string): (r: bool)
    ensures r <==> exists i :: 0 <= i < |patterns| && Match(patterns[i], name)
  {
    if patterns == [] then false
    else Match(patterns[0], name) || MatchesAny(patterns[1..], name)
  }

  /** The tokens of a pattern without metacharacters. */
  function Literals(p: string): seq<Token> {
    seq(|p|, i requires 0 <= i < |p| => Lit(p[i]))
  }

  lemma {:induction false} ParseLiteral(p: string)
    requires NoMeta(p)
    ensures Parse(p) == Some(Literals(p))
    decreases |p|
  {
    if p != [] {
      ParseLiteral(p[1..]);
      assert Literals(p) == [Lit(p[0])] + Literals(p[1..]);
    }
  }

  lemma {:induction false} MatchLiterals(p: string, s: string)
    ensures MatchTokens(Literals(p), s) <==> s == p
    decreases |p|
  {
    if p != [] {
      assert Literals(p)[1..] == Literals(p[1..]);
      if |s| > 0 {
        MatchLiterals(p[1..], s[1..]);
        assert s == p <==> s[0] == p[0] && s[1..] == p[1..] by {
          if s[0] == p[0] && s[1..] == p[1..] {
            assert s == [s[0]] + s[1..];
            assert p == [p[0]] + p[1..];
          }
        }
      }
    }
  }

  /** A pattern without metacharacters matches exactly the name it spells. */
  lemma LiteralPatternMatchesOnlyItself(p: string, name: string)
    requires NoMeta(p)
    ensures Match(p, name) <==> name == p
  {
    ParseLiteral(p);
    MatchLiterals(p, name);
  }

  lemma {:induction false} StarTokenMatches(s: string)
    ensures MatchTokens([Star], s) <==> Separator !in s
    decreases |s|
  {
    assert [Star][1..] == [];
    if s != [] {
      StarTokenMatches(s[1..]);
      assert Separator in s <==> s[0] == Separator || Separator in s[1..] by {
        assert s == [s[0]] + s[1..];
      }
    }
  }

  /** `*` alone matches every name without a separator, the empty one too. */
  lemma StarMatchesEveryName(name: string)
    ensures Match("*", name) <==> Separator !in name
  {
    assert Parse("*") == Some([Star]) by {
      assert "*"[0] == '*' && "*"[1..] == [];
      assert Parse([]) == Some([]);
      assert [Star] + [] == [Star];
    }
    StarTokenMatches(name);
  }

  /** `*` followed by the literal text `lit` (as in `*.go`). */
  predicate EndsWithAfterPlainPrefix(s: string, lit: string) {
    |s| >= |lit| && s[|s| - |lit|..] == lit && Separator !in s[..|s| - |lit|]
  }

  lemma {:induction false} StarLiteralsMatch(lit: string, s: string)
    ensures MatchTokens([Star] + Literals(lit), s) <==> EndsWithAfterPlainPrefix(s, lit)
    decreases |s|
  {
    var ts := [Star] + Literals(lit);
    assert ts[1..] == Literals(lit);
    MatchLiterals(lit, s);
    if s == lit {
      assert s[..|s| - |lit|] == [];
    }
    if |s| > 0 {
      StarLiteralsMatch(lit, s[1..]);
      if |s| > |lit| {
        var k := |s| - |lit|;
        assert s[1..][|s| - 1 - |lit|..] == s[k..];
        assert s[..k] == [s[0]] + s[1..][..k - 1];
        assert Separator in s[..k] <==> s[0] == Separator || Separator in s[1..][..k - 1];
      } else if |s| == |lit| {
        assert s[|s| - |lit|..] == s;
        assert !EndsWithAfterPlainPrefix(s[1..], lit);
      } else {
        assert !EndsWithAfterPlainPrefix(s[1..], lit);
      }
    } else {
      assert EndsWithAfterPlainPrefix(s, lit) <==> lit == [];
    }
  }

  /** A suffix pattern such as `*.go` matches exactly the names that end in
      the suffix and have no separator before it. */
  lemma SuffixPatternMatches(lit: string, name: string)
    requires NoMeta(lit)
    ensures Match("*" + lit, name) <==> EndsWithAfterPlainPrefix(name, lit)
  {
    ParseLiteral(lit);
    assert ("*" + lit)[0] == '*';
    assert ("*" + lit)[1..] == lit;
    StarLiteralsMatch(lit, name);
  }

  lemma {:induction false} SeparatorTokenNeverMatches(ts: seq<Token>, s: string)
    requires Lit(Separator) in ts
    requires Separator !in s
    ensures !MatchTokens(ts, s)
    decreases |s|, |ts|
  {
    if ts[0] != Lit(Separator) {
      assert Lit(Separator) in ts[1..] by {
        var i :| 0 <= i < |ts| && ts[i] == Lit(Separator);
        assert ts[1..][i - 1] == ts[i];
      }
    }
    if |s| > 0 {
      assert Separator !in s[1..] by {
        forall i | 0 <= i < |s| - 1 ensures s[1..][i] != Separator {
          assert s[1..][i] == s[i + 1];
        }
      }
      if ts[0] != Lit(Separator) {
        SeparatorTokenNeverMatches(ts[1..], s[1..]);
        SeparatorTokenNeverMatches(ts[1..], s);
      }
      if ts[0] == Star {
        SeparatorTokenNeverMatches(ts, s[1..]);
      }
    } else if ts[0] == Star {
      SeparatorTokenNeverMatches(ts[1..], s);
    }
  }

  /** Matching is against a base name, which has no separator: a pattern
      holding a literal separator, such as `src/main.go`, matches nothing. */
  lemma SeparatorPatternNeverMatches(pattern: string, name: string)
    requires Parse(pattern).Some? && Lit(Separator) in Parse(pattern).value
    requires Separator !in name
    ensures !Match(pattern, name)
  {
    SeparatorTokenNeverMatches(Parse(pattern).value, name);
  }
}

=== FILE: outputs.dfy ===
/** The loop over the configured outputs: each output document is assembled
    from its own rules, starting from an empty processed set, and written
    under its name; the first output whose rules fail ends the run. Go
    ranges over the outputs map in an unspecified order, so that order is a
    parameter here. Creating the output directory and the file writes
    themselves are not modelled: a written document is the text
    `ProcessRules` yields. Every output is evaluated on one file tree, the
    one before the run; Go writes each document before it walks for the
    next output, so this matches Go when no output file lies below a base
    directory that some rule walks. */
module Outputs {
  import opened Wrappers
  import opened Selector
  import opened Assembler

  type Outcome = Result<string, AssembleError>

  /** `order` lists every output name exactly once. */
  predicate IsKeyOrder<V>(order: seq<string>, m: map<string, V>) {
    && (forall i :: 0 <= i < |order| ==> order[i] in m)
    && (forall k :: k in m ==> k in order)
    && (forall i, j :: 0 <= i < j < |order| ==> order[i] != order[j])
  }

  /** The documents written, by output name, and the output that stopped
      the run with its error, if any. */
  datatype Run = Run(written: map<string, string>, failed: Option<(string, AssembleError)>)

  /** What `processRules` yields for each output over the tree before the
      run; there each output's document depends on its own rules only. */
  function Documents(fs: FileSystem, outputs: map<string, seq<Rule>>): (docs: map<string, Outcome>)
    ensures docs.Keys == outputs.Keys
    ensures forall k :: k in outputs ==> docs[k] == ProcessRules(fs, outputs[k])
  {
    map k | k in outputs :: ProcessRules(fs, outputs[k])
  }

  /** An output's outcome depends on its own rules only: two configurations
      that give output `k` the same rules give it the same outcome, whatever
      other outputs they hold. */
  lemma OutputIndependent(fs: FileSystem, o1: map<string, seq<Rule>>, o2: map<string, seq<Rule>>, k: string)
    requires k in o1 && k in o2 && o1[k] == o2[k]
    ensures Documents(fs, o1)[k] == Documents(fs, o2)[k]
  {
  }

  /** `doc` holds exactly one file block for `p`. */
  predicate OneBlockFor(doc: seq<Piece>, p: string) {
    var blocks := FileBlocks(doc);
    exists i :: 0 <= i < |blocks| && blocks[i].path == p
      && forall j :: 0 <= j < |blocks| && blocks[j].path == p ==> j == i
  }

  lemma OneBlockForGathered(fs: FileSystem, rules: seq<Rule>, p: string)
    requires Assemble(fs, rules).Success?
    requires Gathered(fs, rules).Success? && p in PathSet(Gathered(fs, rules).value)
    ensures OneBlockFor(Assemble(fs, rules).value, p)
  {
    OneBlockPerPath(fs, rules);
    var blocks := FileBlocks(Assemble(fs, rules).value);
    var i :| 0 <= i < |blocks| && blocks[i].path == p;
  }

  /** Every output starts from an empty processed set: a path that two
      outputs both gather is emitted once in each of their documents, so
      neither output suppresses it in the other. */
  lemma SharedPathInEachOutput(fs: FileSystem, outputs: map<string, seq<Rule>>, k1: string, k2: string, p: string)
    requires k1 in outputs && k2 in outputs
    ensures && Assemble(fs, outputs[k1]).Success? && Assemble(fs, outputs[k2]).Success?
            && Gathered(fs, outputs[k1]).Success? && p in PathSet(Gathered(fs, outputs[k1]).value)
            && Gathered(fs, outputs[k2]).Success? && p in PathSet(Gathered(fs, outputs[k2]).value)
            ==> OneBlockFor(Assemble(fs, outputs[k1]).value, p) && OneBlockFor(Assemble(fs, outputs[k2]).value, p)
  {
    if && Assemble(fs, outputs[k1]).Success? && Assemble(fs, outputs[k2]).Success?
       && Gathered(fs, outputs[k1]).Success? && p in PathSet(Gathered(fs, outputs[k1]).value)
       && Gathered(fs, outputs[k2]).Success? && p in PathSet(Gathered(fs, outputs[k2]).value)
    {
      OneBlockForGathered(fs, outputs[k1], p);
      OneBlockForGathered(fs, outputs[k2], p);
    }
  }

  /** The loop itself, over the outcome of each output. */
  function RunLoop(docs: map<string, Outcome>, order: seq<string>): (r: Run)
    requires forall i :: 0 <= i < |order| ==> order[i] in docs
    ensures forall k :: k in r.written ==> k in order && docs[k] == Success(r.written[k])
    ensures r.failed.Some? ==> r.failed.value.0 in order && docs[r.failed.value.0] == Failure(r.failed.value.1)
    ensures r.failed.None? <==> forall i :: 0 <= i < |order| ==> docs[order[i]].Success?
    ensures r.failed.None? ==> forall i :: 0 <= i < |order| ==> order[i] in r.written
    decreases |order|
  {
    if order == [] then Run(map[], None)
    else
      match docs[order[0]]
      case Failure(e) => Run(map[], Some((order[0], e)))
      case Success(text) =>
        var rest := RunLoop(docs, order[1..]);
        assert forall k :: k in order[1..] ==> k in order;
        assert forall i :: 1 <= i < |order| ==> order[i] == order[1..][i - 1];
        Run(rest.written[order[0] := text], rest.failed)
  }

  /** `ProcessOutputs` after the output directory exists. */
  function ProcessOutputs(fs: FileSystem, outputs: map<string, seq<Rule>>, order: seq<string>): (r: Run)
    requires forall i :: 0 <= i < |order| ==> order[i] in outputs
    ensures forall k :: k in r.written ==> k in order && ProcessRules(fs, outputs[k]) == Success(r.written[k])
    ensures r.failed.Some? ==>
      r.failed.value.0 in order && ProcessRules(fs, outputs[r.failed.value.0]) == Failure(r.failed.value.1)
    ensures r.failed.None? <==> forall i :: 0 <= i < |order| ==> ProcessRules(fs, outputs[order[i]]).Success?
  {
    RunLoop(Documents(fs, outputs), order)
  }

  /** The position of the first output whose document fails, or the
      number of outputs when none fails. */
  function FailureIndex(docs: map<string, Outcome>, order: seq<string>): (n: nat)
    requires forall i :: 0 <= i < |order| ==> order[i] in docs
    ensures n <= |order|
    ensures forall i :: 0 <= i < n ==> docs[order[i]].Success?
    ensures n < |order| ==> docs[order[n]].Failure?
    decreases |order|
  {
    if order == [] || docs[order[0]].Failure? then 0
    else
      assert forall i :: 1 <= i < |order| ==> order[i] == order[1..][i - 1];
      1 + FailureIndex(docs, order[1..])
  }

  /** The loop stops at the first failing output, with that output's
      error, having written exactly the outputs before it. */
  lemma {:induction false} RunStopsAtFirstFailure(docs: map<string, Outcome>, order: seq<string>)
    requires forall i :: 0 <= i < |order| ==> order[i] in docs
    ensures var n := FailureIndex(docs, order);
      && (RunLoop(docs, order).failed.None? <==> n == |order|)
      && (n < |order| ==> RunLoop(docs, order).failed == Some((order[n], docs[order[n]].error)))
      && (forall k :: k in RunLoop(docs, order).written <==> k in order[..n])
    decreases |order|
  {
    if order != [] && docs[order[0]].Success? {
      var tail := order[1..];
      RunStopsAtFirstFailure(docs, tail);
      var m := FailureIndex(docs, tail);
      KeysAfterStep(RunLoop(docs, tail).written, RunLoop(docs, order).written, order, m);
      if m < |tail| {
        assert order[m + 1] == tail[m];
      }
    }
  }

  lemma KeysAfterStep(w: map<string, string>, w': map<string, string>, order: seq<string>, m: nat)
    requires m <= |order| - 1 && forall k :: k in w <==> k in order[1..][..m]
    requires w'.Keys == w.Keys + {order[0]}
    ensures forall k :: k in w' <==> k in order[..m + 1]
  {
    assert order[..m + 1] == [order[0]] + order[1..][..m];
  }

  lemma SameWritten(docs: map<string, Outcome>, order1: seq<string>, order2: seq<string>)
    requires IsKeyOrder(order1, docs) && IsKeyOrder(order2, docs)
    requires RunLoop(docs, order1).failed.None? && RunLoop(docs, order2).failed.None?
    ensures RunLoop(docs, order1).written == RunLoop(docs, order2).written
  {
    WrittenIsDocuments(docs, order1);
    WrittenIsDocuments(docs, order2);
  }

  /** A run that visits every output and fails on none writes every
      output's text under its own name. */
  lemma WrittenIsDocuments(docs: map<string, Outcome>, order: seq<string>)
    requires IsKeyOrder(order, docs) && RunLoop(docs, order).failed.None?
    ensures RunLoop(docs, order).written == map k | k in docs && docs[k].Success? :: docs[k].value
  {
    var w := RunLoop(docs, order).written;
    forall k | k in docs ensures k in w {
      var j :| 0 <= j < |order| && order[j] == k;
    }
  }

  /** When every output succeeds, what is written does not depend on the
      order in which the outputs are visited. */
  lemma RunOrderIndependent(docs: map<string, Outcome>, order1: seq<string>, order2: seq<string>)
    requires IsKeyOrder(order1, docs) && IsKeyOrder(order2, docs)
    ensures RunLoop(docs, order1).failed.None? <==> RunLoop(docs, order2).failed.None?
    ensures RunLoop(docs, order1).failed.None? ==> RunLoop(docs, order1).written == RunLoop(docs, order2).written
  {
    if RunLoop(docs, order1).failed.None? {
      forall i | 0 <= i < |order2| ensures docs[order2[i]].Success? {
        var j :| 0 <= j < |order1| && order1[j] == order2[i];
      }
      SameWritten(docs, order1, order2);
    }
  }

  /** The same for the outputs of a configuration, over a tree that the
      written documents do not change: output `k` holds the document of its
      own rules alone, so the map's iteration order does not show in what a
      successful run writes. */
  lemma OrderIndependent(fs: FileSystem, outputs: map<string, seq<Rule>>, order1: seq<string>, order2: seq<string>)
    requires IsKeyOrder(order1, outputs) && IsKeyOrder(order2, outputs)
    ensures ProcessOutputs(fs, outputs, order1).failed.None? <==> ProcessOutputs(fs, outputs, order2).failed.None?
    ensures ProcessOutputs(fs, outputs, order1).failed.None? ==>
      ProcessOutputs(fs, outputs, order1).written == ProcessOutputs(fs, outputs, order2).written
  {
    var docs := Documents(fs, outputs);
    RunOrderIndependent(docs, order1, order2);
  }

  /** A run stops at the first output, in the iteration order, whose rules
      fail, with that output's error; it has then written exactly the
      outputs visited before it. */
  lemma OutputsStopAtFirstFailure(fs: FileSystem, outputs: map<string, seq<Rule>>, order: seq<string>)
    requires forall i :: 0 <= i < |order| ==> order[i] in outputs
    ensures var n := FailureIndex(Documents(fs, outputs), order);
      && (forall i :: 0 <= i < n ==> ProcessRules(fs, outputs[order[i]]).Success?)
      && (n < |order| ==> ProcessOutputs(fs, outputs, order).failed
                          == Some((order[n], ProcessRules(fs, outputs[order[n]]).error)))
      && (forall k :: k in ProcessOutputs(fs, outputs, order).written <==> k in order[..n])
  {
    RunStopsAtFirstFailure(Documents(fs, outputs), order);
  }
}

=== FILE: paths.dfy ===
/** Lexical path operations of Go's `path/filepath` on a Unix host, on
    paths written with `/`: `Base`, `Ext`, and the joining of a base
    directory with the names below it (`Join`) together with its inverse
    `Rel`. */
module Paths {

  const Separator: char := '/'

  /** A directory entry name as the operating system hands it out: never
      empty, never "." or "..", and free of separators. */
  predicate ValidName(n: string) {
    n != "" && n != "." && n != ".." && Separator !in n
  }

  predicate AllValidNames(comps: seq<string>) {
    forall i :: 0 <= i < |comps| ==> ValidName(comps[i])
  }

  function TrimTrailingSeparators(p: string): (r: string)
    ensures |r| <= |p| && r == p[..|r|]
    ensures r == [] || r[|r| - 1] != Separator
    ensures forall i :: |r| <= i < |p| ==> p[i] == Separator
  {
    if p == [] || p[|p| - 1] != Separator then p
    else TrimTrailingSeparators(p[..|p| - 1])
  }

  /** The part of `p` after its last separator. */
  function AfterLastSeparator(p: string): (r: string)
    ensures Separator !in r
    ensures |r| <= |p| && r == p[|p| - |r|..]
    ensures |r| < |p| ==> p[|p| - |r| - 1] == Separator
  {
    if p == [] || p[|p| - 1] == Separator then []
    else AfterLastSeparator(p[..|p| - 1]) + [p[|p| - 1]]
  }

  /** `filepath.Base`: the last element of the path once trailing
      separators are dropped; "." for the empty path and "/" for a path
      of separators only. */
  function Base(p: string): (r: string)
    ensures r != ""
    ensures r == "/" || Separator !in r
    ensures p != "" && Separator !in p ==> r == p
  {
    if p == "" then "."
    else
      var q := TrimTrailingSeparators(p);
      if q == "" then "/" else AfterLastSeparator(q)
  }

  lemma {:induction false} AfterLastSeparatorOfJoin(dir: string, name: string)
    requires Separator !in name
    ensures AfterLastSeparator(dir + [Separator] + name) == name
    decreases |name|
  {
    var p := dir + [Separator] + name;
    if name != [] {
      var q := name[..|name| - 1];
      assert p[..|p| - 1] == dir + [Separator] + q;
      AfterLastSeparatorOfJoin(dir, q);
      assert name == q + [name[|name| - 1]];
    }
  }

  /** The base of a joined path is the name that was joined on. */
  lemma BaseOfJoin(dir: string, name: string)
    requires name != "" && Separator !in name
    ensures Base(dir + [Separator] + name) == name
  {
    AfterLastSeparatorOfJoin(dir, name);
  }

  /** `filepath.Ext`: the suffix of the last path element starting at its
      last dot, or "" when that element has no dot. */
  function Ext(p: string): (r: string)
    ensures r == "" || (r[0] == '.' && |r| <= |p| && r == p[|p| - |r|..])
    ensures forall i :: 0 < i < |r| ==> r[i] != '.' && r[i] != Separator
  {
    if p == [] || p[|p| - 1] == Separator then ""
    else if p[|p| - 1] == '.' then "."
    else
      var q := p[..|p| - 1];
      var e := Ext(q);
      if e == "" then ""
      else
        assert p == q + [p[|p| - 1]];
        e + [p[|p| - 1]]
  }

  /** `Ext` is empty exactly when the last element has no dot. */
  lemma {:induction false} ExtEmptyIffNoDot(p: string)
    ensures Ext(p) == "" <==> '.' !in AfterLastSeparator(p)
    decreases |p|
  {
    if p != [] && p[|p| - 1] != Separator && p[|p| - 1] != '.' {
      var q := p[..|p| - 1];
      ExtEmptyIffNoDot(q);
      assert AfterLastSeparator(p) == AfterLastSeparator(q) + [p[|p| - 1]];
    }
  }

  /** A name whose last dot is followed by `suffix` has extension
      "." + `suffix`. */
  lemma {:induction false} ExtOfDottedName(stem: string, suffix: string)
    requires '.' !in suffix && Separator !in suffix
    ensures Ext(stem + "." + suffix) == "." + suffix
    decreases |suffix|
  {
    var p := stem + "." + suffix;
    if suffix != [] {
      var q := suffix[..|suffix| - 1];
      assert p[..|p| - 1] == stem + "." + q;
      ExtOfDottedName(stem, q);
      assert "." + suffix == "." + q + [suffix[|suffix| - 1]];
    }
  }

  /** A path without any dot has no extension. */
  lemma {:induction false} ExtOfDotless(p: string)
    requires '.' !in p
    ensures Ext(p) == ""
    decreases |p|
  {
    if p != [] && p[|p| - 1] != Separator {
      ExtOfDotless(p[..|p| - 1]);
    }
  }

  lemma {:induction false} ExtOfJoin(dir: string, name: string)
    requires Separator !in name
    ensures Ext(dir + [Separator] + name) == Ext(name)
    decreases |name|
  {
    var p := dir + [Separator] + name;
    if name != [] {
      var q := name[..|name| - 1];
      assert p[..|p| - 1] == dir + [Separator] + q;
      ExtOfJoin(dir, q);
    }
  }

  // ---------------------------------------------------------------------
  // `filepath.Clean` and `filepath.Join`. Clean splits a path at its
  // separators, drops the empty and "." elements, lets each ".." cancel the
  // element before it (or vanish right after the root of a rooted path) and
  // joins what is left; it returns "." for an empty result.

  /** `strings.Split(p, "/")`: the pieces between separators, empty ones
      included. */
  function Split(p: string): (r: seq<string>)
    ensures |r| >= 1
    decreases |p|
  {
    if p == [] then [""]
    else
      var init := Split(p[..|p| - 1]);
      if p[|p| - 1] == Separator then init + [""]
      else init[..|init| - 1] + [init[|init| - 1] + [p[|p| - 1]]]
  }

  /** `strings.Join(parts, "/")`. */
  function JoinElements(parts: seq<string>): (r: string)
    ensures parts != [] && parts[0] != "" ==> r != "" && r[0] == parts[0][0]
    decreases |parts|
  {
    if parts == [] then ""
    else if |parts| == 1 then parts[0]
    else JoinElements(parts[..|parts| - 1]) + [Separator] + parts[|parts| - 1]
  }

  /** An element that survives cleaning as it is. */
  predicate Segment(s: string) {
    s != "" && s != "." && Separator !in s
  }

  predicate Rooted(p: string) {
    p != [] && p[0] == Separator
  }

  /** The pieces that are neither empty nor ".". */
  function Elements(parts: seq<string>): (r: seq<string>)
    ensures (forall i :: 0 <= i < |parts| ==> Separator !in parts[i]) ==>
              forall i :: 0 <= i < |r| ==> Segment(r[i])
    decreases |parts|
  {
    if parts == [] then []
    else
      var e := parts[|parts| - 1];
      Elements(parts[..|parts| - 1]) + (if e == "" || e == "." then [] else [e])
  }

  /** A cleaned element list: no ".." in a rooted path, and in a relative
      path every ".." comes before every other element. */
  predicate Normal(rooted: bool, st: seq<string>) {
    && (forall i :: 0 <= i < |st| ==> Segment(st[i]))
    && (rooted ==> forall i :: 0 <= i < |st| ==> st[i] != "..")
    && (forall i :: 0 < i < |st| && st[i] == ".." ==> st[i - 1] == "..")
  }

  /** One element of Clean's scan over the elements kept so far. */
  function Step(rooted: bool, st: seq<string>, e: string): (r: seq<string>)
    ensures Normal(rooted, st) && Segment(e) ==> Normal(rooted, r)
  {
    if e != ".." then st + [e]
    else if st != [] && st[|st| - 1] != ".." then st[..|st| - 1]
    else if rooted then st
    else st + [e]
  }

  function Resolve(rooted: bool, elems: seq<string>): (r: seq<string>)
    ensures (forall i :: 0 <= i < |elems| ==> Segment(elems[i])) ==> Normal(rooted, r)
    decreases |elems|
  {
    if elems == [] then []
    else Step(rooted, Resolve(rooted, elems[..|elems| - 1]), elems[|elems| - 1])
  }

  /** No piece of a split holds a separator. */
  lemma {:induction false} SplitPieces(p: string)
    ensures forall i :: 0 <= i < |Split(p)| ==> Separator !in Split(p)[i]
    decreases |p|
  {
    if p != [] {
      var q := p[..|p| - 1];
      SplitPieces(q);
      SplitSnoc(q, p[|p| - 1]);
      assert p == q + [p[|p| - 1]];
    }
  }

  /** The elements of `Clean(p)`. */
  function Stack(p: string): (r: seq<string>)
    ensures Normal(Rooted(p), r)
  {
    SplitPieces(p);
    Resolve(Rooted(p), Elements(Split(p)))
  }

  function Render(rooted: bool, st: seq<string>): (r: string)
    ensures Normal(rooted, st) ==> r != ""
  {
    if rooted then [Separator] + JoinElements(st)
    else if st == [] then "."
    else JoinElements(st)
  }

  /** `filepath.Clean`. */
  function Clean(p: string): string {
    Render(Rooted(p), Stack(p))
  }

  /** `filepath.Join` of two elements: empty elements are ignored and the
      result is cleaned. */
  function Join(dir: string, name: string): string {
    if dir == "" && name == "" then ""
    else if dir == "" then Clean(name)
    else if name == "" then Clean(dir)
    else Clean(dir + [Separator] + name)
  }

  lemma {:induction false} SplitOfName(n: string)
    requires Separator !in n
    ensures Split(n) == [n]
    decreases |n|
  {
    if n != [] {
      SplitOfName(n[..|n| - 1]);
      assert n == n[..|n| - 1] + [n[|n| - 1]];
    }
  }

  /** The step of `Split` for one more character. */
  lemma SplitSnoc(q: string, c: char)
    ensures var s := Split(q);
      Split(q + [c]) == if c == Separator then s + [""] else s[..|s| - 1] + [s[|s| - 1] + [c]]
  {
    assert (q + [c])[..|q|] == q;
  }

  /** Splitting distributes over a separator. */
  lemma {:induction false} SplitConcat(a: string, b: string)
    ensures Split(a + [Separator] + b) == Split(a) + Split(b)
    decreases |b|
  {
    if b == [] {
      SplitSnoc(a, Separator);
      assert a + [Separator] + b == a + [Separator];
    } else {
      var q := b[..|b| - 1];
      var c := b[|b| - 1];
      assert b == q + [c];
      assert a + [Separator] + b == (a + [Separator] + q) + [c];
      SplitConcat(a, q);
      SplitSnoc(a + [Separator] + q, c);
      SplitSnoc(q, c);
      if c != Separator {
        SplitLast(Split(a), Split(q), c);
      }
    }
  }

  lemma SplitLast(sa: seq<string>, sq: seq<string>, c: char)
    requires sq != []
    ensures var i := sa + sq;
      i[..|i| - 1] + [i[|i| - 1] + [c]] == sa + (sq[..|sq| - 1] + [sq[|sq| - 1] + [c]])
  {
    var i := sa + sq;
    assert i[..|i| - 1] == sa + sq[..|sq| - 1];
  }

  /** Joining and splitting are inverse: `strings.Split` recovers the
      pieces `strings.Join` glued together, as long as none holds a
      separator, and joining the pieces of a split gives the path back. */
  lemma {:induction false} SplitJoinElements(parts: seq<string>)
    requires parts != [] && forall i :: 0 <= i < |parts| ==> Separator !in parts[i]
    ensures Split(JoinElements(parts)) == parts
    decreases |parts|
  {
    if |parts| == 1 {
      SplitOfName(parts[0]);
    } else {
      var init := parts[..|parts| - 1];
      var last := parts[|parts| - 1];
      assert JoinElements(parts) == JoinElements(init) + [Separator] + last;
      SplitJoinElements(init);
      SplitJoinStep(JoinElements(init), init, last);
      assert parts == init + [last];
    }
  }

  lemma SplitJoinStep(j: string, init: seq<string>, last: string)
    requires Split(j) == init && Separator !in last
    ensures Split(j + [Separator] + last) == init + [last]
  {
    SplitConcat(j, last);
    SplitOfName(last);
  }

  lemma {:induction false} JoinElementsSplit(p: string)
    ensures JoinElements(Split(p)) == p
    decreases |p|
  {
    if p != [] {
      var q := p[..|p| - 1];
      var c := p[|p| - 1];
      JoinElementsSplit(q);
      assert p == q + [c];
      SplitSnoc(q, c);
      if c == Separator {
        JoinEmptyLast(Split(q));
      } else {
        JoinExtendLast(Split(q), c);
      }
    }
  }

  lemma JoinEmptyLast(parts: seq<string>)
    requires parts != []
    ensures JoinElements(parts + [""]) == JoinElements(parts) + [Separator]
  {
    assert (parts + [""])[..|parts|] == parts;
  }

  lemma JoinExtendLast(parts: seq<string>, c: char)
    requires parts != []
    ensures JoinElements(parts[..|parts| - 1] + [parts[|parts| - 1] + [c]]) == JoinElements(parts) + [c]
  {
    var s := parts[..|parts| - 1] + [parts[|parts| - 1] + [c]];
    if |parts| > 1 {
      assert s[..|s| - 1] == parts[..|parts| - 1];
    }
  }

  lemma {:induction false} ElementsConcat(a: seq<string>, b: seq<string>)
    ensures Elements(a + b) == Elements(a) + Elements(b)
    decreases |b|
  {
    if b == [] {
      assert a + b == a;
    } else {
      var q := b[..|b| - 1];
      var e := b[|b| - 1];
      assert (a + b)[..|a + b| - 1] == a + q && (a + b)[|a + b| - 1] == e;
      ElementsConcat(a, q);
      var keep := if e == "" || e == "." then [] else [e];
      assert Elements(a + b) == Elements(a + q) + keep;
      assert Elements(b) == Elements(q) + keep;
    }
  }

  lemma {:induction false} ElementsOfSegments(st: seq<string>)
    requires forall i :: 0 <= i < |st| ==> Segment(st[i])
    ensures Elements(st) == st
    decreases |st|
  {
    if st != [] {
      ElementsOfSegments(st[..|st| - 1]);
    }
  }

  /** Elements that are neither ".." nor removed are kept in order. */
  lemma {:induction false} ResolveAppend(rooted: bool, elems: seq<string>, names: seq<string>)
    requires forall i :: 0 <= i < |names| ==> names[i] != ".."
    ensures Resolve(rooted, elems + names) == Resolve(rooted, elems) + names
    decreases |names|
  {
    if names == [] {
      assert elems + names == elems;
    } else {
      var q := names[..|names| - 1];
      var e := names[|names| - 1];
      assert (elems + names)[..|elems + names| - 1] == elems + q && (elems + names)[|elems + names| - 1] == e;
      ResolveAppend(rooted, elems, q);
      assert Resolve(rooted, elems + names) == Step(rooted, Resolve(rooted, elems + q), e);
    }
  }

  /** Clean leaves a cleaned element list alone. */
  lemma {:induction false} ResolveNormal(rooted: bool, st: seq<string>)
    requires Normal(rooted, st)
    ensures Resolve(rooted, st) == st
    decreases |st|
  {
    if st != [] {
      var init := st[..|st| - 1];
      assert Normal(rooted, init);
      ResolveNormal(rooted, init);
      if st[|st| - 1] == ".." {
        assert init == [] || init[|init| - 1] == "..";
      }
    }
  }

  lemma ElementsOfEmpty()
    ensures Elements(Split("")) == []
    ensures Elements(Split([Separator])) == []
    ensures Elements(Split(".")) == []
  {
    ElementsOfDot();
    ElementsOfRoot();
  }

  lemma ElementsOfDot()
    ensures Elements(Split(".")) == []
  {
    var d: string := ".";
    SplitOfName(d);
    assert Elements([d]) == [];
  }

  lemma ElementsOfRoot()
    ensures Elements(Split("")) == []
    ensures Elements(Split([Separator])) == []
  {
    var e: string := "";
    assert Split(e) == [e];
    SplitSnoc(e, Separator);
    assert e + [Separator] == [Separator];
    assert Elements([e]) == [];
    assert [e, e][..1] == [e];
  }

  lemma SplitRooted(st: seq<string>)
    requires st != [] && forall i :: 0 <= i < |st| ==> Segment(st[i])
    ensures Split([Separator] + JoinElements(st)) == Split("") + st
  {
    var e: string := "";
    var j := JoinElements(st);
    assert [Separator] + j == e + [Separator] + j;
    SplitConcat(e, j);
    SplitJoinElements(st);
  }

  lemma ElementsAfterRoot(st: seq<string>)
    requires forall i :: 0 <= i < |st| ==> Segment(st[i])
    ensures Elements(Split("") + st) == st
  {
    ElementsOfEmpty();
    ElementsConcat(Split(""), st);
    ElementsOfSegments(st);
  }

  lemma ElementsOfRooted(st: seq<string>)
    requires forall i :: 0 <= i < |st| ==> Segment(st[i])
    ensures Elements(Split([Separator] + JoinElements(st))) == st
  {
    if st == [] {
      ElementsOfEmpty();
      assert [Separator] + JoinElements(st) == [Separator];
    } else {
      SplitRooted(st);
      ElementsAfterRoot(st);
    }
  }

  lemma ElementsOfRelative(st: seq<string>)
    requires forall i :: 0 <= i < |st| ==> Segment(st[i])
    ensures Elements(Split(Render(false, st))) == st
  {
    if st == [] {
      ElementsOfEmpty();
    } else {
      assert Render(false, st) == JoinElements(st);
      SplitJoinElements(st);
      ElementsOfSegments(st);
    }
  }

  /** A cleaned path spells its rootedness and its elements unambiguously. */
  lemma RenderInverse(rooted: bool, st: seq<string>)
    requires Normal(rooted, st)
    ensures Rooted(Render(rooted, st)) == rooted
    ensures Stack(Render(rooted, st)) == st
  {
    if rooted {
      ElementsOfRooted(st);
    } else {
      ElementsOfRelative(st);
    }
    ResolveNormal(rooted, st);
  }

  /** Cleaning is idempotent. */
  lemma CleanIdempotent(p: string)
    ensures Clean(Clean(p)) == Clean(p)
  {
    RenderInverse(Rooted(p), Stack(p));
  }

  /** Two paths clean to the same string exactly when they are equally
      rooted and have the same cleaned elements. */
  lemma CleanEqual(p: string, q: string)
    ensures Clean(p) == Clean(q) <==> Rooted(p) == Rooted(q) && Stack(p) == Stack(q)
  {
    RenderInverse(Rooted(p), Stack(p));
    RenderInverse(Rooted(q), Stack(q));
  }

  /** Appending names below a non-empty path appends them to its cleaned
      elements. */
  lemma CleanAppend(y: string, names: seq<string>)
    requires y != "" && names != [] && forall i :: 0 <= i < |names| ==> ValidName(names[i])
    ensures Rooted(y + [Separator] + JoinElements(names)) == Rooted(y)
    ensures Stack(y + [Separator] + JoinElements(names)) == Stack(y) + names
  {
    SplitConcat(y, JoinElements(names));
    SplitJoinElements(names);
    ElementsConcat(Split(y), names);
    ElementsOfSegments(names);
    ResolveAppend(Rooted(y), Elements(Split(y)), names);
  }

  lemma StackOfNames(names: seq<string>)
    requires names != [] && forall i :: 0 <= i < |names| ==> ValidName(names[i])
    ensures !Rooted(JoinElements(names)) && Stack(JoinElements(names)) == names
  {
    var j := JoinElements(names);
    assert names[0][0] != Separator by {
      assert ValidName(names[0]);
    }
    SplitJoinElements(names);
    ElementsOfSegments(names);
    ResolveOfNames(names);
  }

  lemma ResolveOfNames(names: seq<string>)
    requires forall i :: 0 <= i < |names| ==> names[i] != ".."
    ensures Resolve(false, names) == names
  {
    ResolveAppend(false, [], names);
    assert [] + names == names;
  }

  /** The path `filepath.Walk` hands out for the entry reached from `base`
      through the names `comps`: the base as given, and below it each name
      joined on with `filepath.Join`. */
  function PathOf(base: string, comps: seq<string>): string {
    if comps == [] then base
    else Join(PathOf(base, comps[..|comps| - 1]), comps[|comps| - 1])
  }

  /** `filepath.Rel(base, PathOf(base, comps))`: the names joined with
      separators, or "." for the base itself. */
  function Rel(comps: seq<string>): string {
    if comps == [] then "." else JoinElements(comps)
  }

  /** Joining one name onto a path appends it to the path's cleaned
      elements. */
  lemma JoinName(y: string, n: string)
    requires ValidName(n)
    ensures Join(y, n) == Render(Rooted(y), Stack(y) + [n])
  {
    assert JoinElements([n]) == n;
    if y == "" {
      StackOfNames([n]);
      ElementsOfEmpty();
      assert Stack(y) == [];
    } else {
      CleanAppend(y, [n]);
    }
  }

  lemma NormalAppend(rooted: bool, st: seq<string>, names: seq<string>)
    requires Normal(rooted, st) && forall i :: 0 <= i < |names| ==> ValidName(names[i])
    ensures Normal(rooted, st + names)
  {
    var all := st + names;
    assert forall i :: 0 <= i < |all| ==> all[i] != ".." ==> true;
    assert forall i :: |st| <= i < |all| ==> all[i] == names[i - |st|];
  }

  lemma JoinStep(p: string, rooted: bool, st: seq<string>, n: string)
    requires ValidName(n) && Normal(rooted, st) && p == Render(rooted, st)
    ensures Join(p, n) == Render(rooted, st + [n])
  {
    RenderInverse(rooted, st);
    JoinName(p, n);
  }

  /** A walked path below the base is the cleaned base with the names
      appended: only the base's own spelling is cleaned away. */
  lemma {:induction false} PathOfCleaned(base: string, comps: seq<string>)
    requires comps != [] && forall i :: 0 <= i < |comps| ==> ValidName(comps[i])
    ensures PathOf(base, comps) == Render(Rooted(base), Stack(base) + comps)
    decreases |comps|
  {
    var init := comps[..|comps| - 1];
    var p := PathOf(base, init);
    if init == [] {
      JoinName(p, comps[0]);
    } else {
      PathOfCleaned(base, init);
      PathStep(base, comps);
    }
  }

  lemma PathStep(base: string, comps: seq<string>)
    requires |comps| > 1 && forall i :: 0 <= i < |comps| ==> ValidName(comps[i])
    ensures Join(Render(Rooted(base), Stack(base) + comps[..|comps| - 1]), comps[|comps| - 1])
            == Render(Rooted(base), Stack(base) + comps)
  {
    var p := Render(Rooted(base), Stack(base) + comps[..|comps| - 1]);
    var r, s := Rooted(base), Stack(base);
    var init, n := comps[..|comps| - 1], comps[|comps| - 1];
    var st := s + init;
    NormalAppend(r, s, init);
    JoinStep(p, r, st, n);
    SnocOfAppend(s, comps);
  }

  lemma SnocOfAppend<T>(s: seq<T>, comps: seq<T>)
    requires comps != []
    ensures s + comps[..|comps| - 1] + [comps[|comps| - 1]] == s + comps
  {
    assert comps == comps[..|comps| - 1] + [comps[|comps| - 1]];
  }

  /** Two spellings of one base directory that clean to the same path, such
      as `src` and `./src`, or `.` and `a/..`, give every entry below them
      the same path. */
  lemma SameCleanBaseSamePaths(b1: string, b2: string, comps: seq<string>)
    requires Clean(b1) == Clean(b2)
    requires comps != [] && forall i :: 0 <= i < |comps| ==> ValidName(comps[i])
    ensures PathOf(b1, comps) == PathOf(b2, comps)
  {
    CleanEqual(b1, b2);
    PathOfCleaned(b1, comps);
    PathOfCleaned(b2, comps);
  }

  lemma StackOfEmpty()
    ensures !Rooted("") && Stack("") == []
    ensures !Rooted(".") && Stack(".") == []
  {
    ElementsOfEmpty();
  }

  lemma ElementsDropDot(b: string)
    ensures Elements(Split("." + [Separator] + b)) == Elements(Split(b))
  {
    var d: string := ".";
    SplitConcat(d, b);
    SplitOfName(d);
    ElementsConcat([d], Split(b));
    assert Elements([d]) == [];
  }

  /** A leading "./" is cleaned away. */
  lemma CleanDropsLeadingDot(b: string)
    requires !Rooted(b)
    ensures Clean("." + [Separator] + b) == Clean(b)
  {
    ElementsDropDot(b);
    var p := "." + [Separator] + b;
    assert !Rooted(p);
    assert Stack(p) == Stack(b);
  }

  /** Below the base ".", a walked path is the relative path alone. */
  lemma DotBasePath(comps: seq<string>)
    requires comps != [] && forall i :: 0 <= i < |comps| ==> ValidName(comps[i])
    ensures PathOf(".", comps) == Rel(comps)
  {
    PathOfCleaned(".", comps);
    StackOfEmpty();
    assert [] + comps == comps;
  }

  lemma NameBasePath(comps: seq<string>)
    requires |comps| > 1 && forall i :: 0 <= i < |comps| ==> ValidName(comps[i])
    ensures PathOf(comps[0], comps[1..]) == Rel(comps)
  {
    var name := comps[0];
    PathOfCleaned(name, comps[1..]);
    StackOfNames([name]);
    assert JoinElements([name]) == name;
    assert [name] + comps[1..] == comps;
  }

  /** The same file reached from the base "." and from the base naming its
      subdirectory gets one path. */
  lemma DotBaseAgreesWithSubdir(comps: seq<string>)
    requires |comps| > 1 && forall i :: 0 <= i < |comps| ==> ValidName(comps[i])
    ensures PathOf(".", comps) == PathOf(comps[0], comps[1..])
  {
    DotBasePath(comps);
    NameBasePath(comps);
  }

  /** `Rel` inverts joining: the displayed relative path, joined back onto
      the base directory, gives the walked path. */
  lemma JoinRel(base: string, comps: seq<string>)
    requires comps != [] && forall i :: 0 <= i < |comps| ==> ValidName(comps[i])
    ensures Join(base, Rel(comps)) == PathOf(base, comps)
  {
    PathOfCleaned(base, comps);
    assert Rel(comps) != "" by {
      assert ValidName(comps[0]);
    }
    if base == "" {
      StackOfEmpty();
      StackOfNames(comps);
      assert [] + comps == comps;
    } else {
      CleanAppend(base, comps);
    }
  }

  lemma BaseOfRender(rooted: bool, st: seq<string>, n: string)
    requires ValidName(n)
    ensures Base(Render(rooted, st + [n])) == n
  {
    var all := st + [n];
    assert all[..|all| - 1] == st && all[|all| - 1] == n;
    if st == [] {
      if rooted {
        assert Render(rooted, all) == "" + [Separator] + n;
        BaseOfJoin("", n);
      }
    } else if rooted {
      assert Render(rooted, all) == ([Separator] + JoinElements(st)) + [Separator] + n;
      BaseOfJoin([Separator] + JoinElements(st), n);
    } else {
      BaseOfJoin(JoinElements(st), n);
    }
  }

  lemma ExtOfRender(rooted: bool, st: seq<string>, n: string)
    requires ValidName(n)
    ensures Ext(Render(rooted, st + [n])) == Ext(n)
  {
    var all := st + [n];
    assert all[..|all| - 1] == st && all[|all| - 1] == n;
    if st == [] {
      if rooted {
        assert Render(rooted, all) == "" + [Separator] + n;
        ExtOfJoin("", n);
      }
    } else if rooted {
      assert Render(rooted, all) == ([Separator] + JoinElements(st)) + [Separator] + n;
      ExtOfJoin([Separator] + JoinElements(st), n);
    } else {
      ExtOfJoin(JoinElements(st), n);
    }
  }

  /** Joining a name onto any directory keeps the name's extension. */
  lemma ExtOfJoinName(dir: string, n: string)
    requires ValidName(n)
    ensures Ext(Join(dir, n)) == Ext(n)
  {
    JoinName(dir, n);
    ExtOfRender(Rooted(dir), Stack(dir), n);
  }

  /** The base name of a walked path is its last name below the base. */
  lemma BaseOfPath(base: string, comps: seq<string>)
    requires comps != [] && ValidName(comps[|comps| - 1])
    ensures Base(PathOf(base, comps)) == comps[|comps| - 1]
  {
    var p := PathOf(base, comps[..|comps| - 1]);
    var n := comps[|comps| - 1];
    assert PathOf(base, comps) == Join(p, n);
    JoinName(p, n);
    BaseOfRender(Rooted(p), Stack(p), n);
  }
}

=== FILE: render.dfy ===
/** The renderer: `processFile`, which tags a file's content with the
    language its extension names in a fixed table and wraps it, unchanged,
    in a fenced Markdown code block. Reading the file is the caller's
    business; here the content is given. */
module Render {
  import opened Wrappers
  import opened Paths

  /** `languageMap`: file extension to Markdown language tag. */
  const LanguageMap: map<string, string> := map[
    ".py" := "python",
    ".js" := "javascript",
    ".ts" := "typescript",
    ".jsx" := "javascript",
    ".tsx" := "typescript",
    ".html" := "html",
    ".css" := "css",
    ".json" := "json",
    ".yaml" := "yaml",
    ".yml" := "yaml",
    ".java" := "java",
    ".c" := "c",
    ".cpp" := "cpp",
    ".cs" := "csharp",
    ".rb" := "ruby",
    ".go" := "go",
    ".php" := "php",
    ".sh" := "bash",
    ".bat" := "batch",
    ".sql" := "sql",
    ".swift" := "swift",
    ".kt" := "kotlin",
    ".rs" := "rust",
    ".xml" := "xml",
    ".ini" := "ini",
    ".md" := "markdown",
    ".txt" := "plaintext",
    ".svelte" := "svelte",
    ".tf" := "hcl",
    ".tfvars" := "hcl"
  ]

  const DefaultLanguage: string := "plaintext"

  const Fence: string := "```"

  /** The table lookup, where a missing key reads as "" in Go and an empty
      tag falls back to "plaintext". */
  function LanguageFor(ext: string): (lang: string)
    ensures ext in LanguageMap ==> lang == LanguageMap[ext]
    ensures ext !in LanguageMap ==> lang == DefaultLanguage
    ensures lang != "" && '\n' !in lang
  {
    var found := if ext in LanguageMap then LanguageMap[ext] else "";
    if found == "" then DefaultLanguage else found
  }

  /** The fenced block for a file at `path` holding `content`. */
  function RenderFile(path: string, content: string): (block: string)
    ensures |block| == |Fence| + |LanguageFor(Ext(path))| + 1 + |content| + 1 + |Fence|
    ensures block[..|Fence|] == Fence && block[|block| - |Fence|..] == Fence
  {
    Fence + LanguageFor(Ext(path)) + "\n" + content + "\n" + Fence
  }

  /** Splits at the first line break. */
  function SplitLine(s: string): (r: Option<(string, string)>)
    ensures r.Some? ==> '\n' !in r.value.0 && s == r.value.0 + "\n" + r.value.1
    ensures r.None? <==> '\n' !in s
  {
    if s == [] then None
    else if s[0] == '\n' then Some(([], s[1..]))
    else
      match SplitLine(s[1..])
      case None => None
      case Some((line, rest)) => Some(([s[0]] + line, rest))
  }

  /** Reads a fenced block back into its language tag and its content. */
  function Unfence(block: string): Option<(string, string)> {
    if |block| < 2 * |Fence| + 1 || block[..|Fence|] != Fence || block[|block| - |Fence| - 1..] != "\n" + Fence then None
    else SplitLine(block[|Fence|..|block| - |Fence| - 1])
  }

  lemma {:induction false} SplitLineAfterLine(line: string, rest: string)
    requires '\n' !in line
    ensures SplitLine(line + "\n" + rest) == Some((line, rest))
    decreases |line|
  {
    var s := line + "\n" + rest;
    if line != [] {
      assert s[1..] == line[1..] + "\n" + rest;
      SplitLineAfterLine(line[1..], rest);
      assert [line[0]] + line[1..] == line;
    } else {
      assert s[1..] == rest;
    }
  }

  /** The content is copied verbatim: reading the block back yields the
      language looked up for the path's extension and exactly the content. */
  lemma RenderFileRoundTrip(path: string, content: string)
    ensures Unfence(RenderFile(path, content)) == Some((LanguageFor(Ext(path)), content))
  {
    var lang := LanguageFor(Ext(path));
    var block := RenderFile(path, content);
    assert block == Fence + (lang + "\n" + content) + ("\n" + Fence);
    assert block[|Fence|..|block| - |Fence| - 1] == lang + "\n" + content;
    assert block[|block| - |Fence| - 1..] == "\n" + Fence;
    SplitLineAfterLine(lang, content);
  }

  /** The tag depends only on the base name: the directory part of a
      walked path never contributes to the extension. */
  lemma LanguageFromBaseName(dir: string, name: string)
    requires ValidName(name)
    ensures LanguageFor(Ext(Join(dir, name))) == LanguageFor(Ext(name))
  {
    ExtOfJoinName(dir, name);
  }

  /** A `.go` file is tagged `go`, whatever directory it is in. */
  lemma GoFileIsTaggedGo(dir: string, stem: string)
    requires Separator !in stem
    ensures LanguageFor(Ext(Join(dir, stem + ".go"))) == "go"
  {
    GoExtension(dir, stem);
    GoTag();
  }

  /** The table lookup on its own: unfolding it next to `Join` is costly. */
  lemma GoTag()
    ensures LanguageFor(".go") == "go"
  {
  }

  lemma GoExtension(dir: string, stem: string)
    requires Separator !in stem
    ensures Ext(Join(dir, stem + ".go")) == ".go"
  {
    var name := stem + ".go";
    GoNameValid(stem);
    assert name == stem + "." + "go";
    ExtOfDottedName(stem, "go");
    ExtOfJoinName(dir, name);
  }

  lemma GoNameValid(stem: string)
    requires Separator !in stem
    ensures ValidName(stem + ".go")
  {
    var name := stem + ".go";
    assert name[|name| - 3..] == ".go";
    assert forall k :: 0 <= k < |name| ==> name[k] in stem || name[k] in ".go";
  }

  /** An extension missing from the table falls back to `plaintext`,
      whatever directory the file is in. */
  lemma UnknownExtensionIsPlaintext(dir: string, stem: string, suffix: string)
    requires ValidName(stem + "." + suffix) && '.' !in suffix
    requires "." + suffix !in LanguageMap
    ensures LanguageFor(Ext(Join(dir, stem + "." + suffix))) == "plaintext"
  {
    var name := stem + "." + suffix;
    assert Separator !in suffix by {
      assert forall k :: 0 <= k < |suffix| ==> suffix[k] == name[|stem| + 1 + k];
    }
    ExtOfDottedName(stem, suffix);
    ExtOfJoinName(dir, name);
  }

  /** So does a name without a dot, even below a directory with one. */
  lemma DotlessNameIsPlaintext(dir: string, name: string)
    requires '.' !in name && Separator !in name
    ensures LanguageFor(Ext(dir + [Separator] + name)) == "plaintext"
  {
    ExtOfJoin(dir, name);
    ExtOfDotless(name);
  }
}

=== FILE: selector.dfy ===
/** The selector: `gatherFiles` walking one base directory the way Go's
    `filepath.Walk` does, pruning directories by `exclude_dirs` and keeping
    the files whose base name is included and not excluded. The file system
    is data: the entry found at each base-directory string, with every
    directory's children in the sorted order in which `Walk` visits them. */
module Selector {
  import opened Wrappers
  import opened Glob
  import opened Paths

  datatype Entry =
    | File(name: string, content: string)
    | UnreadableFile(name: string)          // stat succeeds, reading fails
    | Dir(name: string, children: seq<Entry>)
    | UnlistableDir(name: string)           // stat succeeds, listing fails
    | Unstatable(name: string)              // `os.Lstat` fails

  /** What `os.Lstat` finds at each base directory named in a rule; a base
      directory that is not a key cannot be stat'ed. */
  type FileSystem = map<string, Entry>

  /** `os.Lstat` succeeds on a base directory: the path is not empty (the
      empty path never names a file) and the tree holds an entry for it. */
  predicate Statable(fs: FileSystem, baseDir: string) {
    baseDir != "" && baseDir in fs
  }

  /** A non-directory: `Walk` hands it to the walk function as a file. */
  predicate IsFile(e: Entry) {
    e.File? || e.UnreadableFile?
  }

  /** An entry whose visit makes `Walk` report an error. */
  predicate IsBroken(e: Entry) {
    e.UnlistableDir? || e.Unstatable?
  }

  /** The three pattern lists of a rule. */
  datatype Patterns = Patterns(includes: seq<string>, excludes: seq<string>, excludeDirs: seq<string>)

  /** A selected file: the names leading to it from the base directory, and
      the file itself. */
  datatype Hit = Hit(comps: seq<string>, file: Entry)

  datatype WalkError = StatFailed(path: string) | ListFailed(path: string)

  /** The base name the walk function sees for the entry reached through
      `comps`: the base of the base directory itself, else the last name. */
  function NodeName(base: string, comps: seq<string>): string {
    if comps == [] then Base(base) else comps[|comps| - 1]
  }

  /** Exclude wins over include, and nothing is included by default. */
  predicate Wanted(name: string, ps: Patterns) {
    !MatchesAny(ps.excludes, name) && MatchesAny(ps.includes, name)
  }

  /** The walk below one entry, reached from `base` through `comps`. A
      directory is listed before the walk function sees it, so a directory
      that cannot be listed is an error even when its name is excluded. */
  function Walk(base: string, comps: seq<string>, e: Entry, ps: Patterns): (r: Result<seq<Hit>, WalkError>)
    ensures r.Success? ==> forall h :: h in r.value ==>
      && |h.comps| >= |comps| && h.comps[..|comps|] == comps
      && IsFile(h.file) && Wanted(NodeName(base, h.comps), ps)
    ensures r.Success? && ps.includes == [] ==> r.value == []
    decreases e
  {
    match e
    case Unstatable(_) => Failure(StatFailed(PathOf(base, comps)))
    case UnlistableDir(_) => Failure(ListFailed(PathOf(base, comps)))
    case File(_, _) =>
      Success(if Wanted(NodeName(base, comps), ps) then [Hit(comps, e)] else [])
    case UnreadableFile(_) =>
      Success(if Wanted(NodeName(base, comps), ps) then [Hit(comps, e)] else [])
    case Dir(_, children) =>
      if MatchesAny(ps.excludeDirs, NodeName(base, comps)) then Success([])
      else WalkChildren(base, comps, children, ps)
  }

  function WalkChildren(base: string, comps: seq<string>, children: seq<Entry>, ps: Patterns): (r: Result<seq<Hit>, WalkError>)
    ensures r.Success? ==> forall h :: h in r.value ==>
      && |h.comps| > |comps| && h.comps[..|comps|] == comps
      && IsFile(h.file) && Wanted(NodeName(base, h.comps), ps)
    ensures r.Success? && ps.includes == [] ==> r.value == []
    decreases children
  {
    if children == [] then Success([])
    else
      var first :- Walk(base, comps + [children[0].name], children[0], ps);
      var rest :- WalkChildren(base, comps, children[1..], ps);
      Success(first + rest)
  }

  /** `gatherFiles(baseDir, include, exclude, excludeDirs)`. */
  function Gather(fs: FileSystem, baseDir: string, ps: Patterns): (r: Result<seq<Hit>, WalkError>)
    ensures !Statable(fs, baseDir) ==> r == Failure(StatFailed(baseDir))
    ensures baseDir == "" ==> r == Failure(StatFailed(""))
    ensures r.Success? ==> forall h :: h in r.value ==>
      && IsFile(h.file)
      && !MatchesAny(ps.excludes, NodeName(baseDir, h.comps))
      && MatchesAny(ps.includes, NodeName(baseDir, h.comps))
    ensures r.Success? && ps.includes == [] ==> r.value == []
  {
    if !Statable(fs, baseDir) then Failure(StatFailed(baseDir))
    else Walk(baseDir, [], fs[baseDir], ps)
  }

  /** `leaf` is met by a walk started at `e`, whose base name is `here`,
      after descending through the names `rest`: every directory passed on
      the way, `e` included, is a directory whose name no `exclude_dirs`
      pattern matches. */
  ghost predicate Reaches(e: Entry, here: string, rest: seq<string>, excludeDirs: seq<string>, leaf: Entry)
    decreases rest
  {
    if rest == [] then leaf == e
    else
      && e.Dir?
      && !MatchesAny(excludeDirs, here)
      && exists i :: 0 <= i < |e.children| && e.children[i].name == rest[0]
                     && Reaches(e.children[i], rest[0], rest[1..], excludeDirs, leaf)
  }

  /** The reference definition of selection: the file reached through
      `comps` below the base directory, none of whose directories is pruned,
      and whose base name is included and not excluded. */
  ghost predicate Selected(fs: FileSystem, baseDir: string, ps: Patterns, comps: seq<string>, leaf: Entry) {
    && Statable(fs, baseDir)
    && Reaches(fs[baseDir], Base(baseDir), comps, ps.excludeDirs, leaf)
    && IsFile(leaf)
    && Wanted(NodeName(baseDir, comps), ps)
  }

  lemma {:induction false} WalkSound(base: string, comps: seq<string>, e: Entry, ps: Patterns, h: Hit)
    requires Walk(base, comps, e, ps).Success? && h in Walk(base, comps, e, ps).value
    ensures |h.comps| >= |comps| && h.comps[..|comps|] == comps
    ensures Reaches(e, NodeName(base, comps), h.comps[|comps|..], ps.excludeDirs, h.file)
    decreases e
  {
    if e.Dir? && !MatchesAny(ps.excludeDirs, NodeName(base, comps)) {
      WalkChildrenSound(base, comps, e.children, ps, h);
      var i :| 0 <= i < |e.children| && e.children[i].name == h.comps[|comps|]
               && Reaches(e.children[i], h.comps[|comps|], h.comps[|comps| + 1..], ps.excludeDirs, h.file);
      var rest := h.comps[|comps|..];
      assert rest[0] == h.comps[|comps|] && rest[1..] == h.comps[|comps| + 1..];
    } else {
      assert h.comps == comps;
    }
  }

  lemma {:induction false} WalkChildrenSound(base: string, comps: seq<string>, children: seq<Entry>, ps: Patterns, h: Hit)
    requires WalkChildren(base, comps, children, ps).Success? && h in WalkChildren(base, comps, children, ps).value
    ensures |h.comps| > |comps| && h.comps[..|comps|] == comps
    ensures exists i :: 0 <= i < |children| && children[i].name == h.comps[|comps|]
                        && Reaches(children[i], h.comps[|comps|], h.comps[|comps| + 1..], ps.excludeDirs, h.file)
    decreases children
  {
    var c := children[0];
    var cc := comps + [c.name];
    var first := Walk(base, cc, c, ps);
    var rest := WalkChildren(base, comps, children[1..], ps);
    assert first.Success? && rest.Success?;
    if h in first.value {
      WalkSound(base, cc, c, ps, h);
      assert h.comps[..|cc|][..|comps|] == comps;
      assert h.comps[|comps|] == h.comps[..|cc|][|comps|] == c.name;
      assert h.comps[|cc|..] == h.comps[|comps| + 1..];
      assert NodeName(base, cc) == c.name;
    } else {
      WalkChildrenSound(base, comps, children[1..], ps, h);
      var i :| 0 <= i < |children[1..]| && children[1..][i].name == h.comps[|comps|]
               && Reaches(children[1..][i], h.comps[|comps|], h.comps[|comps| + 1..], ps.excludeDirs, h.file);
      assert children[i + 1] == children[1..][i];
    }
  }

  lemma {:induction false} WalkComplete(base: string, comps: seq<string>, e: Entry, ps: Patterns, rest: seq<string>, leaf: Entry)
    requires Walk(base, comps, e, ps).Success?
    requires Reaches(e, NodeName(base, comps), rest, ps.excludeDirs, leaf)
    requires IsFile(leaf) && Wanted(NodeName(base, comps + rest), ps)
    ensures Hit(comps + rest, leaf) in Walk(base, comps, e, ps).value
    decreases e
  {
    if rest == [] {
      assert comps + rest == comps;
      assert leaf == e;
      assert Walk(base, comps, e, ps) == Success([Hit(comps, e)]);
    } else {
      assert e.Dir? && !MatchesAny(ps.excludeDirs, NodeName(base, comps));
      assert Walk(base, comps, e, ps) == WalkChildren(base, comps, e.children, ps);
      var i :| 0 <= i < |e.children| && e.children[i].name == rest[0]
               && Reaches(e.children[i], rest[0], rest[1..], ps.excludeDirs, leaf);
      AppendHead(comps, rest);
      WalkChildrenComplete(base, comps, e.children, ps, i, rest[1..], leaf);
    }
  }

  lemma AppendHead(comps: seq<string>, rest: seq<string>)
    requires rest != []
    ensures comps + [rest[0]] + rest[1..] == comps + rest
  {
    assert rest == [rest[0]] + rest[1..];
  }

  lemma {:induction false} WalkChildrenComplete(base: string, comps: seq<string>, children: seq<Entry>, ps: Patterns,
                                                i: nat, rest: seq<string>, leaf: Entry)
    requires WalkChildren(base, comps, children, ps).Success?
    requires i < |children|
    requires Reaches(children[i], children[i].name, rest, ps.excludeDirs, leaf)
    requires IsFile(leaf) && Wanted(NodeName(base, comps + [children[i].name] + rest), ps)
    ensures Hit(comps + [children[i].name] + rest, leaf) in WalkChildren(base, comps, children, ps).value
    decreases children
  {
    var c := children[0];
    var cc := comps + [c.name];
    assert Walk(base, cc, c, ps).Success?;
    if i == 0 {
      assert NodeName(base, cc) == c.name;
      WalkComplete(base, cc, c, ps, rest, leaf);
    } else {
      assert children[1..][i - 1] == children[i];
      WalkChildrenComplete(base, comps, children[1..], ps, i - 1, rest, leaf);
    }
  }

  /** The selector returns exactly the selected files: everything it
      returns is selected, and every selected file is returned. */
  lemma GatherSelectsExactly(fs: FileSystem, baseDir: string, ps: Patterns)
    requires Gather(fs, baseDir, ps).Success?
    ensures forall h :: h in Gather(fs, baseDir, ps).value ==> Selected(fs, baseDir, ps, h.comps, h.file)
    ensures forall comps, leaf :: Selected(fs, baseDir, ps, comps, leaf) ==> Hit(comps, leaf) in Gather(fs, baseDir, ps).value
  {
    assert Statable(fs, baseDir);
    var hits := Walk(baseDir, [], fs[baseDir], ps).value;
    assert Gather(fs, baseDir, ps).value == hits;
    forall h | h in hits ensures Selected(fs, baseDir, ps, h.comps, h.file) {
      WalkHitReached(baseDir, fs[baseDir], ps, h);
    }
    forall comps, leaf | Selected(fs, baseDir, ps, comps, leaf) ensures Hit(comps, leaf) in hits {
      WalkHitsReached(baseDir, fs[baseDir], ps, comps, leaf);
    }
  }

  /** `WalkSound` from the base directory itself. */
  lemma WalkHitReached(base: string, e: Entry, ps: Patterns, h: Hit)
    requires Walk(base, [], e, ps).Success? && h in Walk(base, [], e, ps).value
    ensures Reaches(e, Base(base), h.comps, ps.excludeDirs, h.file)
    ensures IsFile(h.file) && Wanted(NodeName(base, h.comps), ps)
  {
    WalkSound(base, [], e, ps, h);
    assert h.comps[0..] == h.comps;
  }

  /** `WalkComplete` from the base directory itself. */
  lemma WalkHitsReached(base: string, e: Entry, ps: Patterns, comps: seq<string>, leaf: Entry)
    requires Walk(base, [], e, ps).Success?
    requires Reaches(e, Base(base), comps, ps.excludeDirs, leaf) && IsFile(leaf) && Wanted(NodeName(base, comps), ps)
    ensures Hit(comps, leaf) in Walk(base, [], e, ps).value
  {
    var empty: seq<string> := [];
    assert empty + comps == comps;
    assert NodeName(base, empty) == Base(base);
    WalkComplete(base, empty, e, ps, comps, leaf);
  }

  lemma {:induction false} WalkFailureWitness(base: string, comps: seq<string>, e: Entry, ps: Patterns)
    returns (rest: seq<string>, leaf: Entry)
    requires Walk(base, comps, e, ps).Failure?
    ensures Reaches(e, NodeName(base, comps), rest, ps.excludeDirs, leaf) && IsBroken(leaf)
    decreases e
  {
    if IsBroken(e) {
      rest, leaf := [], e;
    } else {
      assert e.Dir? && !MatchesAny(ps.excludeDirs, NodeName(base, comps));
      var i, r, l := WalkChildrenFailureWitness(base, comps, e.children, ps);
      rest, leaf := [e.children[i].name] + r, l;
      assert rest[0] == e.children[i].name && rest[1..] == r;
    }
  }

  lemma {:induction false} WalkChildrenFailureWitness(base: string, comps: seq<string>, children: seq<Entry>, ps: Patterns)
    returns (i: nat, rest: seq<string>, leaf: Entry)
    requires WalkChildren(base, comps, children, ps).Failure?
    ensures i < |children| && Reaches(children[i], children[i].name, rest, ps.excludeDirs, leaf) && IsBroken(leaf)
    decreases children
  {
    var c := children[0];
    var cc := comps + [c.name];
    if Walk(base, cc, c, ps).Failure? {
      assert NodeName(base, cc) == c.name;
      rest, leaf := WalkFailureWitness(base, cc, c, ps);
      i := 0;
    } else {
      var j;
      j, rest, leaf := WalkChildrenFailureWitness(base, comps, children[1..], ps);
      i := j + 1;
      assert children[i] == children[1..][j];
    }
  }

  lemma {:induction false} BrokenFailsWalk(base: string, comps: seq<string>, e: Entry, ps: Patterns, rest: seq<string>, leaf: Entry)
    requires Reaches(e, NodeName(base, comps), rest, ps.excludeDirs, leaf) && IsBroken(leaf)
    ensures Walk(base, comps, e, ps).Failure?
    decreases e
  {
    if rest != [] {
      var i :| 0 <= i < |e.children| && e.children[i].name == rest[0]
               && Reaches(e.children[i], rest[0], rest[1..], ps.excludeDirs, leaf);
      BrokenFailsWalkChildren(base, comps, e.children, ps, i, rest[1..], leaf);
    }
  }

  lemma {:induction false} BrokenFailsWalkChildren(base: string, comps: seq<string>, children: seq<Entry>, ps: Patterns,
                                                   i: nat, rest: seq<string>, leaf: Entry)
    requires i < |children|
    requires Reaches(children[i], children[i].name, rest, ps.excludeDirs, leaf) && IsBroken(leaf)
    ensures WalkChildren(base, comps, children, ps).Failure?
    decreases children
  {
    var c := children[0];
    var cc := comps + [c.name];
    if i == 0 {
      assert NodeName(base, cc) == c.name;
      BrokenFailsWalk(base, cc, c, ps, rest, leaf);
    } else if Walk(base, cc, c, ps).Success? {
      assert children[1..][i - 1] == children[i];
      BrokenFailsWalkChildren(base, comps, children[1..], ps, i - 1, rest, leaf);
    }
  }

  /** Fail-fast traversal: gathering fails exactly when the base directory
      cannot be stat'ed or the walk meets an entry that cannot be stat'ed or
      a directory that cannot be listed. */
  lemma GatherFailsIffBroken(fs: FileSystem, baseDir: string, ps: Patterns)
    ensures Gather(fs, baseDir, ps).Failure? <==>
      || !Statable(fs, baseDir)
      || exists comps, leaf :: Reaches(fs[baseDir], Base(baseDir), comps, ps.excludeDirs, leaf) && IsBroken(leaf)
  {
    if Statable(fs, baseDir) {
      if Gather(fs, baseDir, ps).Failure? {
        var comps, leaf := WalkFailureWitness(baseDir, [], fs[baseDir], ps);
        assert Reaches(fs[baseDir], Base(baseDir), comps, ps.excludeDirs, leaf) && IsBroken(leaf);
      }
      forall comps, leaf | Reaches(fs[baseDir], Base(baseDir), comps, ps.excludeDirs, leaf) && IsBroken(leaf)
        ensures Gather(fs, baseDir, ps).Failure?
      {
        BrokenFailsWalk(baseDir, [], fs[baseDir], ps, comps, leaf);
      }
    }
  }

  lemma {:induction false} ReachesAvoidsPruned(base: string, comps: seq<string>, e: Entry, excludeDirs: seq<string>,
                                               rest: seq<string>, leaf: Entry)
    requires Reaches(e, NodeName(base, comps), rest, excludeDirs, leaf)
    ensures forall k :: 0 <= k < |rest| ==> !MatchesAny(excludeDirs, NodeName(base, comps + rest[..k]))
    decreases rest
  {
    if rest != [] {
      assert comps + rest[..0] == comps;
      var i :| 0 <= i < |e.children| && e.children[i].name == rest[0]
               && Reaches(e.children[i], rest[0], rest[1..], excludeDirs, leaf);
      var cc := comps + [rest[0]];
      assert NodeName(base, cc) == rest[0];
      ReachesAvoidsPruned(base, cc, e.children[i], excludeDirs, rest[1..], leaf);
      forall k | 0 < k < |rest| ensures comps + rest[..k] == cc + rest[1..][..k - 1] {
        assert rest[..k] == [rest[0]] + rest[1..][..k - 1];
      }
    }
  }

  /** Pruning: no selected file lies at or below a directory, the base
      directory included, whose base name an `exclude_dirs` pattern
      matches. */
  lemma PrunedDirectoriesContributeNothing(fs: FileSystem, baseDir: string, ps: Patterns, h: Hit)
    requires Gather(fs, baseDir, ps).Success? && h in Gather(fs, baseDir, ps).value
    ensures forall k :: 0 <= k < |h.comps| ==> !MatchesAny(ps.excludeDirs, NodeName(baseDir, h.comps[..k]))
  {
    assert Statable(fs, baseDir);
    assert Gather(fs, baseDir, ps) == Walk(baseDir, [], fs[baseDir], ps);
    WalkAvoidsPruned(baseDir, fs[baseDir], ps, h);
  }

  lemma WalkAvoidsPruned(base: string, e: Entry, ps: Patterns, h: Hit)
    requires Walk(base, [], e, ps).Success? && h in Walk(base, [], e, ps).value
    ensures forall k :: 0 <= k < |h.comps| ==> !MatchesAny(ps.excludeDirs, NodeName(base, h.comps[..k]))
  {
    WalkSound(base, [], e, ps, h);
    assert h.comps[0..] == h.comps;
    ReachesAvoidsPruned(base, [], e, ps.excludeDirs, h.comps, h.file);
    forall k | 0 <= k < |h.comps| ensures [] + h.comps[..k] == h.comps[..k] {}
  }

  /** A base directory whose own base name is excluded yields nothing,
      provided it can be listed. */
  lemma PrunedBaseDirectoryYieldsNothing(fs: FileSystem, baseDir: string, ps: Patterns)
    requires Statable(fs, baseDir) && fs[baseDir].Dir?
    requires MatchesAny(ps.excludeDirs, Base(baseDir))
    ensures Gather(fs, baseDir, ps) == Success([])
  {
  }

  /** Matching sees only base names: two reachable files with the same base
      name are either both selected or both left out, wherever they lie. */
  lemma SameBaseNameSameVerdict(fs: FileSystem, baseDir: string, ps: Patterns,
                                c1: seq<string>, f1: Entry, c2: seq<string>, f2: Entry)
    requires Statable(fs, baseDir) && Gather(fs, baseDir, ps).Success?
    requires Reaches(fs[baseDir], Base(baseDir), c1, ps.excludeDirs, f1) && IsFile(f1)
    requires Reaches(fs[baseDir], Base(baseDir), c2, ps.excludeDirs, f2) && IsFile(f2)
    requires NodeName(baseDir, c1) == NodeName(baseDir, c2)
    ensures Hit(c1, f1) in Gather(fs, baseDir, ps).value <==> Hit(c2, f2) in Gather(fs, baseDir, ps).value
  {
    GatherSelectsExactly(fs, baseDir, ps);
    var hits := Gather(fs, baseDir, ps).value;
    if Hit(c1, f1) in hits {
      assert Selected(fs, baseDir, ps, Hit(c1, f1).comps, Hit(c1, f1).file);
      assert Selected(fs, baseDir, ps, c2, f2);
    }
    if Hit(c2, f2) in hits {
      assert Selected(fs, baseDir, ps, Hit(c2, f2).comps, Hit(c2, f2).file);
      assert Selected(fs, baseDir, ps, c1, f1);
    }
  }

  /** The name the walk function matches against is Go's `filepath.Base`
      of the walked path. */
  lemma NodeNameIsBaseOfPath(base: string, comps: seq<string>)
    requires comps == [] || ValidName(comps[|comps| - 1])
    ensures NodeName(base, comps) == Base(PathOf(base, comps))
  {
    if comps != [] {
      BaseOfPath(base, comps);
    }
  }

  /** Go's string order, as `sort.Strings` uses it: character by
      character, a proper prefix first. */
  predicate NameLess(a: string, b: string)
    decreases |a|
  {
    if a == [] then b != []
    else b != [] && (a[0] < b[0] || (a[0] == b[0] && NameLess(a[1..], b[1..])))
  }

  lemma {:induction false} NameLessIrreflexive(a: string)
    ensures !NameLess(a, a)
    decreases |a|
  {
    if a != [] {
      NameLessIrreflexive(a[1..]);
    }
  }

  /** Every directory lists its children in strictly increasing name
      order, as `filepath.Walk` reads them. */
  ghost predicate SortedTree(e: Entry)
    decreases e
  {
    e.Dir? ==>
      && (forall i, j :: 0 <= i < j < |e.children| ==> NameLess(e.children[i].name, e.children[j].name))
      && (forall i :: 0 <= i < |e.children| ==> SortedTree(e.children[i]))
  }

  /** Depth-first pre-order of paths below one base directory. */
  ghost predicate PathBefore(x: seq<string>, y: seq<string>) {
    || (|x| < |y| && x == y[..|x|])
    || exists k :: 0 <= k < |x| && k < |y| && x[..k] == y[..k] && NameLess(x[k], y[k])
  }

  ghost predicate InWalkOrder(hits: seq<Hit>) {
    forall i, j :: 0 <= i < j < |hits| ==> PathBefore(hits[i].comps, hits[j].comps)
  }

  lemma {:induction false} WalkInOrder(base: string, comps: seq<string>, e: Entry, ps: Patterns)
    requires SortedTree(e)
    requires Walk(base, comps, e, ps).Success?
    ensures InWalkOrder(Walk(base, comps, e, ps).value)
    decreases e
  {
    if e.Dir? && !MatchesAny(ps.excludeDirs, NodeName(base, comps)) {
      WalkChildrenInOrder(base, comps, e.children, ps);
    }
  }

  lemma ConcatInWalkOrder(f: seq<Hit>, r: seq<Hit>)
    requires InWalkOrder(f) && InWalkOrder(r)
    requires forall x, y :: x in f && y in r ==> PathBefore(x.comps, y.comps)
    ensures InWalkOrder(f + r)
  {
    var all := f + r;
    forall i, j | 0 <= i < j < |all| ensures PathBefore(all[i].comps, all[j].comps) {
      if j < |f| {
        assert all[i] == f[i] && all[j] == f[j];
      } else if i >= |f| {
        assert all[i] == r[i - |f|] && all[j] == r[j - |f|];
      } else {
        assert all[i] == f[i] && all[j] == r[j - |f|];
      }
    }
  }

  /** A file met under the first child comes before one met under a later
      sibling. */
  lemma FirstChildBeforeSiblings(base: string, comps: seq<string>, children: seq<Entry>, ps: Patterns, x: Hit, y: Hit)
    requires children != []
    requires forall i, j :: 0 <= i < j < |children| ==> NameLess(children[i].name, children[j].name)
    requires Walk(base, comps + [children[0].name], children[0], ps).Success?
    requires x in Walk(base, comps + [children[0].name], children[0], ps).value
    requires WalkChildren(base, comps, children[1..], ps).Success?
    requires y in WalkChildren(base, comps, children[1..], ps).value
    ensures PathBefore(x.comps, y.comps)
  {
    var c := children[0];
    var cc := comps + [c.name];
    var tail := children[1..];
    WalkSound(base, cc, c, ps, x);
    WalkChildrenSound(base, comps, tail, ps, y);
    var m :| 0 <= m < |tail| && tail[m].name == y.comps[|comps|]
             && Reaches(tail[m], y.comps[|comps|], y.comps[|comps| + 1..], ps.excludeDirs, y.file);
    assert tail[m] == children[m + 1];
    var k := |comps|;
    assert x.comps[..k] == x.comps[..|cc|][..k] == comps;
    assert x.comps[k] == x.comps[..|cc|][k] == c.name;
    assert x.comps[..k] == y.comps[..k] && NameLess(x.comps[k], y.comps[k]);
  }

  lemma {:induction false} WalkChildrenInOrder(base: string, comps: seq<string>, children: seq<Entry>, ps: Patterns)
    requires forall i, j :: 0 <= i < j < |children| ==> NameLess(children[i].name, children[j].name)
    requires forall i :: 0 <= i < |children| ==> SortedTree(children[i])
    requires WalkChildren(base, comps, children, ps).Success?
    ensures InWalkOrder(WalkChildren(base, comps, children, ps).value)
    decreases children
  {
    if children != [] {
      var c := children[0];
      var cc := comps + [c.name];
      var tail := children[1..];
      var f := Walk(base, cc, c, ps).value;
      var r := WalkChildren(base, comps, tail, ps).value;
      WalkInOrder(base, cc, c, ps);
      assert forall i, j :: 0 <= i < j < |tail| ==> NameLess(tail[i].name, tail[j].name) by {
        forall i, j | 0 <= i < j < |tail| ensures NameLess(tail[i].name, tail[j].name) {
          assert tail[i] == children[i + 1] && tail[j] == children[j + 1];
        }
      }
      WalkChildrenInOrder(base, comps, tail, ps);
      forall x, y | x in f && y in r ensures PathBefore(x.comps, y.comps) {
        FirstChildBeforeSiblings(base, comps, children, ps, x, y);
      }
      ConcatInWalkOrder(f, r);
    }
  }

  /** Deterministic order: on a sorted tree the selector returns files in
      depth-first order of their sorted names, each at most once. */
  lemma GatherInWalkOrder(fs: FileSystem, baseDir: string, ps: Patterns)
    requires Statable(fs, baseDir) && SortedTree(fs[baseDir])
    requires Gather(fs, baseDir, ps).Success?
    ensures InWalkOrder(Gather(fs, baseDir, ps).value)
    ensures forall i, j :: 0 <= i < j < |Gather(fs, baseDir, ps).value| ==>
      Gather(fs, baseDir, ps).value[i].comps != Gather(fs, baseDir, ps).value[j].comps
  {
    var hits := Gather(fs, baseDir, ps).value;
    WalkInOrder(baseDir, [], fs[baseDir], ps);
    forall i, j | 0 <= i < j < |hits| ensures hits[i].comps != hits[j].comps {
      var x := hits[i].comps;
      if hits[j].comps == x {
        assert PathBefore(x, x);
        var k :| 0 <= k < |x| && k < |x| && x[..k] == x[..k] && NameLess(x[k], x[k]);
        NameLessIrreflexive(x[k]);
      }
    }
  }
}

=== FILE: wrappers.dfy ===
/** Failure-compatible wrappers used throughout the model: `Option` for
    values that may be absent and `Result` for the Go `(value, error)` pair. */
module Wrappers {

  datatype Option<+T> = None | Some(value: T)

  datatype Result<+T, +E> = Success(value: T) | Failure(error: E) {

    predicate IsFailure() {
      Failure?
    }

    function PropagateFailure<U>(): Result<U, E>
      requires Failure?
    {
      Failure(error)
    }

    function Extract(): T
      requires Success?
    {
      value
    }
  }
}
